=== FILE: README.md ===
# Car-rental API: a Dafny model of the server-side handlers

This project models the Next.js API routes of a small car-rental site as
pure transitions over an abstract document store. Each handler is a
function from the HTTP method, the request fields and the store to an
`Outcome`: the status code with its JSON body, and the store afterwards.

The store holds five collections: `users`, `cars`, `bookings`, `payment`
and `feedback`. Each is a sequence of documents in natural insertion
order, and each document carries its own id. `findOne` selects the first
matching document. `insertOne` appends a document with an id larger than
every id already present.

At the centre is the booking / availability state machine:

- `POST /api/bookings` validates the seven fields and resolves the user,
  then the car. It refuses a car whose `availability_status` flag is
  false. Otherwise it stores a `waiting` booking priced at
  `price_per_day * duration` and clears the car's flag.
- `POST /api/simulate-payment` forces the booking to `approved`, whatever
  its status was, and appends a payment of the submitted amount.

Around it sit the other routes:

- card payment;
- registration, with duplicate-email rejection;
- login, with its credential checks and projected user;
- adding a car, with the registration-number check and the availability
  default;
- feedback posting and the newest-first listing;
- the admin-gated user listing;
- the dashboard aggregates;
- the two pure helpers of the dashboard page: `getTimeAgo` and the
  utilization rate.

Beyond each handler's own contract, the model proves:

- **Store consistency.** Every handler keeps ids unique, emails unique,
  registration numbers unique and references resolved; for the simulated
  payment this holds whatever the status of the booking it approves
  (`SimulatedPayment.PayPreservesWellFormed`). Every handler also keeps
  every car with a live (not returned) booking flagged unavailable, except
  the simulated payment applied to a returned booking (see below).
- **One live booking per car.** Together with consistency, this holds
  for every store reachable from the empty store through any sequence of
  requests to the modelled routes (`Api.ReachableStoresSatisfyInvariant`).
  Routes of the application outside this model can break it:
  - `PUT /api/admin/cars/[carId]` sets `availability_status` from the
    edit form, so an admin can mark a booked car available.
  - The `DELETE` routes for cars and users leave bookings and feedback
    that point at records that no longer exist.
  - `PUT /api/admin/bookings/[bookingId]` sets a booking `returned` and
    frees its car (see below).

Three behaviours of the code as written are kept rather than corrected,
because the model follows the code. The first two are stated as lemmas;
the third is reflected only in the shape of a datatype:

- A negative `duration` passes validation. The booking is then stored
  with a negative price (`Bookings.NegativeDurationAccepted`).
- The simulated payment re-approves a `returned` booking without touching
  the car's flag. A car that has already been freed then carries an
  approved booking while flagged available
  (`SimulatedPayment.ReapprovingReturnedBookingBreaksFlags`). Only the
  admin status route `PUT /api/admin/bookings/[bookingId]`, which is
  outside the modelled routes, produces `returned` bookings, so the
  reachability theorem covers stores without them.
- The dashboard's top-cars projection asks for a `brand` field that car
  documents do not have. `CarStat` therefore carries only the id, the
  model and the booking count.

Booking creation checks only the availability flag: it compares no
booking dates, so there is no date-interval overlap check. Its 201 body
carries only `bookingId`, not the price.

Layout:

| file | module | contents |
|---|---|---|
| common.dfy | `Common` | `Option`, ids, the `findOne` / `insertOne` / `countDocuments` / `$sum` primitives, rounding |
| ordering.dfy | `Ordering` | `sort({field: -1})` and `limit(k)` |
| model.dfy | `Model` | documents, the store, the bcrypt digest, consistency |
| http.dfy | `Http` | methods, bodies, responses, truthiness |
| bookings.dfy | `Bookings` | `POST /api/bookings` |
| simulate_payment.dfy | `SimulatedPayment` | `POST /api/simulate-payment` |
| payment.dfy | `CardPayment` | `POST /api/payment` |
| register.dfy | `Register` | `POST /api/auth/register` |
| login.dfy | `Login` | `POST /api/auth/login` |
| admin_cars.dfy | `AdminCars` | `POST /api/admin/cars` |
| feedback.dfy | `FeedbackApi` | `/api/feedback` |
| admin_users.dfy | `AdminUsers` | `/api/admin/users` |
| dashboard_stats.dfy | `DashboardStats` | `GET /api/admin/dashboard-stats` |
| dashboard_view.dfy | `DashboardView` | `getTimeAgo` and the utilization rate |
| api.dfy | `Api` | dispatch, request sequences, the reachability theorem |

## Model

| member | source | states |
|---|---|---|
| Common.FindFirst | pages/api/bookings/index.js:19-20 | The selected position holds a match and no earlier document matches. Nothing is selected exactly when no document matches. |
| Common.FreshId | pages/api/bookings/index.js:52 | The id given to an inserted document is larger than every id in the collection, so it differs from all of them. |
| Common.Count | pages/api/admin/dashboard-stats.js:16-18 | A filtered count is at most the collection size. It is zero exactly when no document passes the filter. |
| Common.Sum | pages/api/admin/dashboard-stats.js:11-13 | `$sum` over no payments is 0, which is the fallback to 0 at line 66, and over one payment is its amount. |
| Common.SumAppend | pages/api/admin/dashboard-stats.js:11-13 | The sum over two concatenated collections is the sum of their sums, so a payment appended to the collection adds exactly its amount. |
| Common.RoundedPercent | pages/api/admin/dashboard-stats.js:28-29 | `Math.round(n / d * 100)` is the integer r with 100·n/d in [r − ½, r + ½). |
| Common.PercentOfWholeInRange | pages/api/admin/dashboard-stats.js:28-29 | A rounded share of a whole lies in [0, 100]. |
| Common.CountAfterUpdate | pages/api/admin/dashboard-stats.js:16-18 | Replacing one document changes a count only by what the old and the new document contribute. |
| Ordering.SortDesc | pages/api/feedback.js:46-49 | The sort returns a permutation of the collection, ordered by the key from largest to smallest. |
| Ordering.TopK | pages/api/admin/dashboard-stats.js:32-42 | `sort(-1).limit(k)` returns min(k, n) documents drawn from the collection, ordered newest first. No document left out has a larger key than one kept. |
| Ordering.LargestFirst | pages/api/feedback.js:46-49 | A document whose key is larger than every other one comes first in the sorted result. |
| Bookings.Create | pages/api/bookings/index.js:6-69 | Errors come in order: 405 for a non-POST, 400 for a falsy field (a zero duration included), 404 for the user before 404 for the car, then 400 for an unavailable car. Any error leaves the store unchanged. 201 is returned exactly when every check passes. Exactly one booking is appended, with a fresh id, the request's fields, price = rate × duration and status waiting. The response carries only its id. Only the booked car's flag is cleared, and users, payments and feedback are unchanged. |
| Bookings.SecondBookingRefused | pages/api/bookings/index.js:31-58 | Right after a successful booking, another request for the same car by a known user gets 400 "Car is not available". |
| Bookings.PriceProportionalToDuration | pages/api/bookings/index.js:37-49 | Two bookable requests that differ only in duration are priced in the ratio of their durations: the price is the car's daily rate scaled by the duration. |
| Bookings.NegativeDurationAccepted | pages/api/bookings/index.js:10-48 | A duration of −2 passes validation and is stored with the price −10000. |
| Bookings.CreatePreservesConsistent | pages/api/bookings/index.js:37-58 | Booking creation keeps every consistency condition, including the rule that a car with a live booking is flagged unavailable. |
| Bookings.InsertBookingPreserves | pages/api/bookings/index.js:52-58 | Appending a booking with a fresh id and known user, and clearing its car's flag, keeps the store consistent. |
| SimulatedPayment.Pay | pages/api/simulate-payment.js:10-64 | Responses: 405 for a non-POST, 400 for a missing booking id or an undefined amount (0 is accepted), 404 for an unknown booking. Every error leaves the store unchanged. On 200 the named booking becomes approved whatever its status was, and no other booking, car, user or feedback entry changes. One "Simulated" payment of the submitted amount is appended. The message says "already approved" exactly when the booking was approved before. |
| SimulatedPayment.RepeatedPaymentRecordsTwice | pages/api/simulate-payment.js:34-56 | Paying twice for one booking gives 200 with the "already approved" message the second time. The bookings stay as after the first payment, and two payments are recorded. |
| SimulatedPayment.PayPreservesWellFormed | pages/api/simulate-payment.js:34-48 | Whatever the booking's status, approving it and recording its payment keeps ids, emails and registration numbers unique and every reference resolved. |
| SimulatedPayment.PayPreservesConsistent | pages/api/simulate-payment.js:34-48 | Approving a booking that is not returned, and recording its payment, keeps the store consistent. |
| SimulatedPayment.ReapprovingReturnedBookingBreaksFlags | pages/api/simulate-payment.js:34-37 | In any store where a returned booking's car is flagged available, paying for that booking leaves an approved booking on an available car, so the flag policy fails afterwards. |
| SimulatedPayment.ReturnedScenarioConsistent | pages/api/simulate-payment.js:34-37 | A consistent store meeting those premises exists, and the payment takes it to a store whose flag policy fails. |
| CardPayment.LastFour | pages/api/payment.js:32 | `slice(-4)` returns the last min(4, n) characters of the card number: a suffix of it. |
| CardPayment.Pay | pages/api/payment.js:6-51 | Responses: 405 for a non-POST, 400 when any of the five fields is missing, 404 for an unknown booking. Any error stores nothing. 201 is returned exactly when the booking exists. One payment is appended with the booking's price as its amount, the last four card characters, and the request's method. Bookings and every other collection are unchanged. |
| CardPayment.AmountIndependentOfRequest | pages/api/payment.js:35 | Two card payments for the same booking charge the same amount, whatever else their requests say. |
| CardPayment.PayPreservesConsistent | pages/api/payment.js:29-38 | A card payment keeps the store consistent. |
| Register.Register | pages/api/auth/register.js:6-41 | Responses: 405 for a non-POST; 400 when the email is taken, checked first; 500 when the password is absent (the hash throws). Every error leaves the store unchanged. On 201 exactly one user is appended, with a fresh id, the given fields, a digest of the password made with 10 rounds, and is_admin false. |
| Register.RegisterPreservesEmailsUnique | pages/api/auth/register.js:14-32 | If no two users share an email before a registration, none do after it. |
| Register.RegisterPreservesConsistent | pages/api/auth/register.js:23-32 | Registration keeps the store consistent. |
| Model.Hash | pages/api/auth/register.js:20 | The stored digest uses 10 salt rounds, commits to at most 72 characters, and matches the password it was made from. |
| Model.MatchesHash | pages/api/auth/login.js:28 | The password compare accepts a password exactly when it equals the registered one, or, when both have at least 72 characters, when their first 72 characters agree. |
| Model.LongPasswordsCollide | pages/api/auth/login.js:28 | 72 × "a" + "b" is accepted for a password registered as 73 × "a". |
| Login.Login | pages/api/auth/login.js:7-52 | The store never changes. Responses: 405 for a non-POST; 400 for a missing email or password; 400 "Invalid credentials" for an unknown email; 401 when the password does not match. 200 exactly when it matches, returning the first user with that email, projected to id, email, name and is_admin. |
| Login.RegisterThenLogin | pages/api/auth/login.js:20-44 | After a registration, logging in with the same email and password returns that user, who is not an admin. Any other non-empty password returns that user exactly when it agrees with the registered one on the characters bcrypt reads, and gets 401 otherwise. |
| AdminCars.AddCar | pages/api/admin/cars/index.js:23-96 | Responses: 405 for a non-POST; 400 when any of the six fields is absent; then 400 for a taken registration number. Every error inserts nothing. 201 exactly when the checks pass, appending one car built from the first value of each field. Its image URL is the stored path, or none when no image was sent. It is available exactly when no availability value was sent or that value is "true". |
| AdminCars.AddCarPreservesRegistrationsUnique | pages/api/admin/cars/index.js:63-86 | If registration numbers are unique before the call, they are unique after it. |
| AdminCars.AddCarPreservesConsistent | pages/api/admin/cars/index.js:75-86 | Adding a car keeps the store consistent. |
| AdminCars.AddedCarIsBookable | pages/api/admin/cars/index.js:83 | A car added without an availability field can be booked right away by any known user. |
| FeedbackApi.Handle | pages/api/feedback.js:6-63 | POST: 400 for a falsy user id or comment, 404 for an unknown user, and the store is unchanged on either error. Otherwise one entry with the given user, comment and time is appended and 201 returned. GET returns every entry, newest first, and changes nothing. Any other method gets 405. |
| FeedbackApi.PostedFeedbackListedFirst | pages/api/feedback.js:26-49 | A comment posted later than every stored one heads the next listing, which has one more entry. |
| FeedbackApi.HandlePreservesConsistent | pages/api/feedback.js:26-32 | Posting feedback keeps the store consistent. |
| AdminUsers.ListUsers | pages/api/admin/users.js:9-33 | The store never changes. An absent or non-admin caller gets 403 whatever the method, because the gate runs first. An admin using a non-GET method gets 405. 200 exactly for an admin GET, listing every user in order with every field but the password. |
| DashboardStats.CompletionRate | pages/api/admin/dashboard-stats.js:24-29 | 0 with no bookings. Otherwise the rounded percentage of approved bookings, which lies in [0, 100]. |
| DashboardStats.CarStats | pages/api/admin/dashboard-stats.js:45-60 | One entry per car, in order. Each carries the car's id and model and the number of bookings that reference that car. |
| DashboardStats.TopCars | pages/api/admin/dashboard-stats.js:45-63 | min(3, number of cars) entries, sorted by booking count, largest first, drawn from the per-car statistics as a sub-multiset, so each car is listed at most once. Each entry is a car's true count. No car left out has more bookings than one kept. |
| DashboardStats.Handle | pages/api/admin/dashboard-stats.js:5-81 | The store never changes, and a non-GET gets 405. On GET: revenue is the sum of the payment amounts, active is the count of pending or approved bookings, totalCars is the number of cars, plus the completion rate. It also returns the 5 newest bookings by booking date and the 5 newest payments by payment date (fewer when the collection is smaller). Each list is drawn from its collection, ordered newest first, and nothing left out is newer than an entry kept. It ends with the top cars. |
| DashboardStats.CompletedAreActive | pages/api/admin/dashboard-stats.js:16-27 | The approved count never exceeds the active count. |
| DashboardStats.RevenueAfterSimulatedPayment | pages/api/admin/dashboard-stats.js:11-13 | A simulated payment raises revenue by exactly the submitted amount. |
| DashboardStats.RevenueAfterCardPayment | pages/api/admin/dashboard-stats.js:11-13 | A card payment raises revenue by exactly the booking's price. |
| DashboardStats.NewBookingNotActive | pages/api/admin/dashboard-stats.js:16-18 | A new booking is waiting, so the active count does not change. |
| DashboardStats.PaymentActivatesWaitingBooking | pages/api/admin/dashboard-stats.js:16-18 | Paying for a waiting booking raises the active count by one. |
| DashboardView.TimeAgo | pages/admin/dashboard.js:48-56 | Exactly one unit is chosen: minutes below an hour (future dates included), hours below a day, days otherwise. The number is the floor of the elapsed time in that unit. |
| DashboardView.FloorOfFloor | pages/admin/dashboard.js:52-55 | Flooring minutes to hours, then to days, equals flooring the milliseconds by the product. |
| DashboardView.TimeAgoMonotone | pages/admin/dashboard.js:48-56 | An older date never gets a smaller unit, and within one unit never a smaller number. |
| DashboardView.UtilizationRate | pages/admin/dashboard.js:143 | The rounded percentage of bookingCount over the active count, or over 1 when there are no active bookings. It lies in [0, 100] when the count does not exceed the active count. |
| Api.Handle | pages/api/auth/login.js:7-52 | Read-only requests never change the store: login, the statistics (pages/api/admin/dashboard-stats.js:5-81), the user listing (pages/api/admin/users.js:6-34) and every non-POST feedback call (pages/api/feedback.js:40-63). |
| Api.FailedRequestKeepsStore | pages/api/bookings/index.js:10-33 | Every refused request, on every route, leaves the store as it was. |
| Api.CollectionWriters | pages/api/simulate-payment.js:17-56 | Each collection has fixed writers. Only registration adds users. Only booking and car creation touch cars. Only booking creation and the simulated payment touch bookings. Only the two payment routes add payments. Only feedback posting adds feedback. |
| Api.LiveBookingBlocksCar | pages/api/bookings/index.js:31-33 | In a consistent store, a car with a live booking cannot be booked again. |
| Api.CreateKeepsOneLive | pages/api/bookings/index.js:31-58 | A successful booking leaves at most one live booking per car. |
| Api.PayKeepsOneLive | pages/api/simulate-payment.js:34-37 | The simulated payment keeps at most one live booking per car and produces no returned booking. |
| Api.HandlePreservesInvariant | pages/api/bookings/index.js:31-58 | Every request keeps consistency, the absence of returned bookings, and one live booking per car. |
| Api.RunPreservesInvariant | pages/api/bookings/index.js:31-58 | Any sequence of requests keeps that invariant. |
| Api.ReachableStoresSatisfyInvariant | pages/api/bookings/index.js:31-58 | Every store reachable from the empty store satisfies the invariant. |

## Left out

- Connection setup and database selection (`utils/mongodb.js`) are left out. The store is an abstract value.
- Ids are abstract, well-formed values. ObjectId parsing of a malformed id string, which throws and becomes a 500, is not modelled.
- Booking creation and card payment call `ObjectId(x)` without `new` (pages/api/bookings/index.js:19-20, 41-42 and 56; pages/api/payment.js:22 and 30). The model assumes a driver version whose `ObjectId` accepts that call. The driver version is not recorded with the code; with a driver whose constructor requires `new`, every valid booking and card payment would end in a 500.
- Other driver failures that surface as 500 "Something went wrong" are not modelled. The one exception is registration with an absent password, where the hash throws.
- bcrypt is a foreign library. The digest is an abstract value that records the cost factor (10) and the first 72 characters of the password it was made from, and `Matches` is its comparison.
- Decoding the Authorization header (base64 and JSON) is foreign. The caller it yields is an input to `AdminUsers.ListUsers`.
- Multipart parsing and the image file's mkdir, rename and unlink, with its timestamped name, are file I/O. The image is reduced to the optional path it would be stored under.
- Clock readings (`Date.now()`, `new Date()`) are parameters named `now`. They supply transaction ids, payment dates and feedback times. Where a handler reads the clock twice, once for the payment date and once for the transaction id (pages/api/simulate-payment.js:44-45, pages/api/payment.js:33-34), the two readings are taken as equal.
- Money is integral (cents), and `parseInt` / `parseFloat` results arrive already parsed. Floating point is out of scope.
- `Math.round` is applied to the exact rational. Floating-point error in the division, which can move a value that lies near a half, is not modelled.
- Concurrency is out of scope. The unguarded read-then-write in booking creation is real, but a sequential model cannot exhibit it.
- Request dates arrive as instants. `new Date(x)` parsing and Invalid Date are not modelled.
- `DashboardView.TimeAgo`: returns the unit and the number. The label text (`5m ago`) is string formatting and is left out.
- The admin routes are outside the modelled core: `PUT /api/admin/bookings/[bookingId]` (sets `approve` or `returned`, and frees the car on `returned`), `PUT` and `DELETE` on `/api/admin/cars/[carId]`, and `DELETE /api/admin/users/[userId]`. Within the model, `returned` bookings arise only in hand-built stores.
- No date-interval overlap check exists in the code, so none is modelled.
- The React pages and components, `next.config.js`, and the read-only GET routes (`/api/cars`, `/api/cars/[id]`, `/api/admin/bookings`, `/api/users/[userId]/bookings`) are rendering or plain reads.
- Request fields are taken to carry the JSON types the site's own pages send: strings, numbers and ids, each possibly absent or null. Two consequences of other types are not modelled:
  - A non-numeric `duration` such as `"abc"` is truthy, so it passes the check at pages/api/bookings/index.js:10. The booking is then stored with a NaN price (line 37) and the response is 201. The booking form sends `parseInt(duration)`, which serialises NaN as null, so only direct API callers can reach this.
  - A JSON object as `email`, such as `{"$ne": null}`, is truthy, and `findOne({ email })` (pages/api/auth/login.js:20, pages/api/auth/register.js:14) reads it as a query operator, not an equality test.
- JSON `null` request values are not distinguished from absent ones. For example, a simulated payment with `amount: null` passes the `=== undefined` test and stores a null amount.
- `Ordering.SortDesc`: fixes insertion order among equal keys. The document store leaves that order unspecified, so the model shows one admissible order. Only the sortedness and permutation properties are promised.
- `DashboardStats.Handle`: the recent lists carry one admissible order among equal dates, as for `Ordering.SortDesc`. The response field `brand` of the top cars is absent because car documents have no such field.
- `Login.RegisterThenLogin`: characters stand for bytes. bcrypt reads only the first 72 bytes of a password, and the model truncates at 72 characters. For a password with non-ASCII characters, which take more than one UTF-8 byte, the real cut falls earlier than the model's.
- `SimulatedPayment.PayPreservesConsistent`: requires that the booking being approved is not returned. Without that requirement the flag policy can break, as `SimulatedPayment.ReapprovingReturnedBookingBreaksFlags` shows.

=== FILE: admin_cars.dfy ===
/** `POST /api/admin/cars` (pages/api/admin/cars/index.js): add a car from a
    multipart form. Each form field arrives as an array of values and only
    its first value is used; a field that is sent at all passes the presence
    check, even with an empty value. The uploaded picture is reduced to the
    path it is stored under. */
module AdminCars {
  import opened Common
  import opened Model
  import opened Http
  import Bookings

  /** The first value of each form field, `None` when the field was not
      sent. Year and price arrive already parsed. */
  datatype CarForm = CarForm(
    make: Option<string>,
    model: Option<string>,
    year: Option<int>,
    color: Option<string>,
    registration: Option<string>,
    pricePerDay: Option<int>,
    availability: Option<string>,
    image: Option<string>)

  predicate HasRequiredFields(form: CarForm) {
    && form.make.Some?
    && form.model.Some?
    && form.year.Some?
    && form.color.Some?
    && form.registration.Some?
    && form.pricePerDay.Some?
  }

  predicate RegistrationTaken(form: CarForm, s: Store)
    requires HasRequiredFields(form)
  {
    CarWithRegistration(s, form.registration.value).Some?
  }

  function AddCar(m: Method, form: CarForm, s: Store): (r: Outcome)
    ensures m != Post ==> r == Outcome(MethodNotAllowed, s)
    ensures m == Post && !HasRequiredFields(form) ==> r == Reply(400, "Missing required car details", s)
    ensures m == Post && HasRequiredFields(form) && RegistrationTaken(form, s) ==>
              r == Reply(400, "Car with this registration number already exists.", s)
    ensures r.response.status == 201 <==> m == Post && HasRequiredFields(form) && !RegistrationTaken(form, s)
    ensures r.response.status != 201 ==> r.store == s
    ensures r.response.status == 201 ==>
              && AppendsOne(s.cars, r.store.cars)
              && var c := r.store.cars[|s.cars|];
              && (forall j :: 0 <= j < |s.cars| ==> s.cars[j].id != c.id)
              && r.response.body == Created("Car added successfully", c.id)
              && c.make == form.make.value && c.model == form.model.value
              && c.year == form.year.value && c.color == form.color.value
              && c.registration == form.registration.value
              && c.pricePerDay == form.pricePerDay.value
              && c.imageUrl == form.image
              && (c.available <==> form.availability.None? || form.availability.value == "true")
    ensures r.store.users == s.users && r.store.bookings == s.bookings &&
            r.store.payments == s.payments && r.store.feedback == s.feedback
  {
    if m != Post then Outcome(MethodNotAllowed, s)
    else if !HasRequiredFields(form) then Reply(400, "Missing required car details", s)
    else if RegistrationTaken(form, s) then
      Reply(400, "Car with this registration number already exists.", s)
    else
      var available := match form.availability
        case None => true
        case Some(v) => v == "true";
      var car := Car(
        FreshId(s.cars, (c: Car) => c.id), form.make.value, form.model.value, form.year.value,
        form.color.value, form.registration.value, form.pricePerDay.value, form.image, available);
      var s' := s.(cars := s.cars + [car]);
      assert s'.cars[..|s.cars|] == s.cars;
      Outcome(Response(201, Created("Car added successfully", car.id)), s')
  }

  /** No two cars share a registration number after a call if none did before. */
  lemma {:induction false} AddCarPreservesRegistrationsUnique(m: Method, form: CarForm, s: Store)
    requires RegistrationsUnique(s.cars)
    ensures RegistrationsUnique(AddCar(m, form, s).store.cars)
  {
    var r := AddCar(m, form, s);
    if r.response.status == 201 {
      var c := r.store.cars[|s.cars|];
      assert r.store.cars == s.cars + [c];
      forall j | 0 <= j < |s.cars| ensures s.cars[j].registration != c.registration {
        assert CarWithRegistration(s, form.registration.value).None?;
      }
    }
  }

  lemma AddCarPreservesConsistent(m: Method, form: CarForm, s: Store)
    requires Consistent(s)
    ensures Consistent(AddCar(m, form, s).store)
  {
    AddCarPreservesRegistrationsUnique(m, form, s);
    var r := AddCar(m, form, s);
    if r.response.status == 201 {
      var c := r.store.cars[|s.cars|];
      assert r.store == s.(cars := s.cars + [c]);
      AppendCarPreserves(s, c);
    }
  }

  /** A car added without an availability field can be booked right away
      by any known user. */
  lemma AddedCarIsBookable(form: CarForm, req: Bookings.BookingRequest, s: Store)
    requires AddCar(Post, form, s).response.status == 201
    requires form.availability.None?
    requires Bookings.HasRequiredFields(req)
    requires req.carId == Some(AddCar(Post, form, s).store.cars[|s.cars|].id)
    requires UserAt(s, req.userId.value).Some?
    ensures Bookings.Create(Post, req, AddCar(Post, form, s).store).response.status == 201
  {
    var s' := AddCar(Post, form, s).store;
    var c := s'.cars[|s.cars|];
    assert s'.cars == s.cars + [c];
    FindFirstAfterAppend(s.cars, (x: Car) => x.id == c.id, c);
  }
}

=== FILE: admin_users.dfy ===
/** `/api/admin/users` (pages/api/admin/users.js): an administrator gate in
    front of a read-only listing of every user without the password. The
    gate runs before the method is looked at. */
module AdminUsers {
  import opened Common
  import opened Model
  import opened Http

  const Forbidden := Response(403, Message("Forbidden: Only admins can access this resource"))

  function ToProfile(u: User): Profile {
    Profile(u.id, u.email, u.name, u.phone, u.address, u.isAdmin)
  }

  /** `caller` is the user decoded from the Authorization header, `None`
      when the header is absent. */
  function ListUsers(m: Method, caller: Option<SessionUser>, s: Store): (r: Outcome)
    ensures r.store == s
    ensures caller.None? || !caller.value.isAdmin ==> r.response == Forbidden
    ensures caller.Some? && caller.value.isAdmin && m != Get ==> r.response == MethodNotAllowed
    ensures r.response.status == 200 <==> caller.Some? && caller.value.isAdmin && m == Get
    ensures r.response.status == 200 ==>
              && r.response.body.UserList?
              && |r.response.body.users| == |s.users|
              && forall i :: 0 <= i < |s.users| ==>
                   var p := r.response.body.users[i];
                   var u := s.users[i];
                   && p.id == u.id && p.email == u.email && p.name == u.name
                   && p.phone == u.phone && p.address == u.address && p.isAdmin == u.isAdmin
  {
    if caller.None? || !caller.value.isAdmin then Outcome(Forbidden, s)
    else if m != Get then Outcome(MethodNotAllowed, s)
    else Outcome(Response(200, UserList(seq(|s.users|, i requires 0 <= i < |s.users| => ToProfile(s.users[i])))), s)
  }
}

=== FILE: api.dfy ===
/** The API as a whole: one request kind per route, the dispatch of a
    request to its handler, and the properties that hold across handlers
    and across any sequence of requests. */
module Api {
  import opened Common
  import opened Model
  import opened Http
  import Bookings
  import SimulatedPayment
  import CardPayment
  import Register
  import Login
  import AdminCars
  import FeedbackApi
  import DashboardStats
  import AdminUsers

  /** `now` is the server clock reading a handler stores. */
  datatype Request =
    | CreateBooking(m: Method, booking: Bookings.BookingRequest)
    | SimulatePayment(m: Method, simulated: SimulatedPayment.SimulatedPaymentRequest, now: int)
    | PayWithCard(m: Method, card: CardPayment.CardPaymentRequest, now: int)
    | RegisterUser(m: Method, registration: Register.RegisterRequest)
    | LogIn(m: Method, credentials: Login.LoginRequest)
    | AddCar(m: Method, form: AdminCars.CarForm)
    | FeedbackCall(m: Method, feedback: FeedbackApi.FeedbackRequest, now: int)
    | GetDashboardStats(m: Method)
    | ListUsers(m: Method, caller: Option<SessionUser>)

  /** The routes that only read: login, the dashboard statistics, the user
      listing, and every feedback call but a POST. */
  predicate ReadOnly(req: Request) {
    || req.LogIn?
    || req.GetDashboardStats?
    || req.ListUsers?
    || (req.FeedbackCall? && req.m != Post)
  }

  predicate Succeeded(r: Response) {
    200 <= r.status < 300
  }

  function Handle(req: Request, s: Store): (r: Outcome)
    ensures ReadOnly(req) ==> r.store == s
  {
    match req
    case CreateBooking(m, b) => Bookings.Create(m, b, s)
    case SimulatePayment(m, p, now) => SimulatedPayment.Pay(m, p, now, s)
    case PayWithCard(m, p, now) => CardPayment.Pay(m, p, now, s)
    case RegisterUser(m, u) => Register.Register(m, u, s)
    case LogIn(m, c) => Login.Login(m, c, s)
    case AddCar(m, f) => AdminCars.AddCar(m, f, s)
    case FeedbackCall(m, f, now) => FeedbackApi.Handle(m, f, now, s)
    case GetDashboardStats(m) => DashboardStats.Handle(m, s)
    case ListUsers(m, caller) => AdminUsers.ListUsers(m, caller, s)
  }

  /** A request that is refused, whatever the reason, changes nothing. */
  lemma FailedRequestKeepsStore(req: Request, s: Store)
    ensures !Succeeded(Handle(req, s).response) ==> Handle(req, s).store == s
  {
    match req
    case CreateBooking(m, b) =>
    case SimulatePayment(m, p, now) =>
    case PayWithCard(m, p, now) =>
    case RegisterUser(m, u) =>
    case LogIn(m, c) =>
    case AddCar(m, f) =>
    case FeedbackCall(m, f, now) =>
    case GetDashboardStats(m) =>
    case ListUsers(m, caller) =>
  }

  /** Each collection has its writers: only registration adds users, only
      booking and car creation touch cars, only booking creation and the
      simulated payment touch bookings, only the two payment routes add
      payments, and only the feedback route adds feedback. */
  lemma CollectionWriters(req: Request, s: Store)
    ensures var s' := Handle(req, s).store;
            && (s'.users != s.users ==> req.RegisterUser?)
            && (s'.cars != s.cars ==> req.CreateBooking? || req.AddCar?)
            && (s'.bookings != s.bookings ==> req.CreateBooking? || req.SimulatePayment?)
            && (s'.payments != s.payments ==> req.SimulatePayment? || req.PayWithCard?)
            && (s'.feedback != s.feedback ==> req.FeedbackCall?)
  {
    match req
    case CreateBooking(m, b) =>
    case SimulatePayment(m, p, now) =>
    case PayWithCard(m, p, now) =>
    case RegisterUser(m, u) =>
    case LogIn(m, c) =>
    case AddCar(m, f) =>
    case FeedbackCall(m, f, now) =>
    case GetDashboardStats(m) =>
    case ListUsers(m, caller) =>
  }

  /** The store after serving the requests in order. */
  function Run(reqs: seq<Request>, s: Store): Store
    decreases |reqs|
  {
    if |reqs| == 0 then s else Run(reqs[1..], Handle(reqs[0], s).store)
  }

  ghost predicate NoReturned(s: Store) {
    forall i :: 0 <= i < |s.bookings| ==> s.bookings[i].status != Returned
  }

  /** What the availability flag is for: no car has two bookings that are
      both still live (not returned). */
  ghost predicate OneLiveBookingPerCar(s: Store) {
    forall i, j :: 0 <= i < j < |s.bookings| && s.bookings[i].carId == s.bookings[j].carId ==>
      s.bookings[i].status == Returned || s.bookings[j].status == Returned
  }

  ghost predicate Invariant(s: Store) {
    Consistent(s) && NoReturned(s) && OneLiveBookingPerCar(s)
  }

  /** In a consistent store a car with a live booking cannot be booked again. */
  lemma LiveBookingBlocksCar(req: Bookings.BookingRequest, s: Store, i: nat)
    requires Consistent(s)
    requires Bookings.HasRequiredFields(req) && UserAt(s, req.userId.value).Some?
    requires i < |s.bookings| && s.bookings[i].carId == req.carId.value && s.bookings[i].status != Returned
    ensures Bookings.Create(Post, req, s) == Reply(400, "Car is not available", s)
  {
    assert s.bookings[i].carId in CarIds(s);
    var c :| c in s.cars && c.id == s.bookings[i].carId;
    var j :| 0 <= j < |s.cars| && s.cars[j] == c;
    assert CarAt(s, req.carId.value).Some?;
  }

  lemma HandlePreservesInvariant(req: Request, s: Store)
    requires Invariant(s)
    ensures Invariant(Handle(req, s).store)
  {
    match req
    case CreateBooking(m, b) =>
      Bookings.CreatePreservesConsistent(m, b, s);
      if Bookings.Create(m, b, s).response.status == 201 {
        CreateKeepsOneLive(b, s);
      }
    case SimulatePayment(m, p, now) =>
      SimulatedPayment.PayPreservesConsistent(m, p, now, s);
      PayKeepsOneLive(m, p, now, s);
    case PayWithCard(m, p, now) =>
      CardPayment.PayPreservesConsistent(m, p, now, s);
      SameBookingsKeepLiveness(CardPayment.Pay(m, p, now, s).store, s);
    case RegisterUser(m, u) =>
      Register.RegisterPreservesConsistent(m, u, s);
      SameBookingsKeepLiveness(Register.Register(m, u, s).store, s);
    case LogIn(m, c) =>
    case AddCar(m, f) =>
      AdminCars.AddCarPreservesConsistent(m, f, s);
      SameBookingsKeepLiveness(AdminCars.AddCar(m, f, s).store, s);
    case FeedbackCall(m, f, now) =>
      FeedbackApi.HandlePreservesConsistent(m, f, now, s);
      SameBookingsKeepLiveness(FeedbackApi.Handle(m, f, now, s).store, s);
    case GetDashboardStats(m) =>
    case ListUsers(m, caller) =>
  }

  /** The booking-level parts of the invariant only read the bookings. */
  lemma SameBookingsKeepLiveness(s': Store, s: Store)
    requires s'.bookings == s.bookings
    requires NoReturned(s) && OneLiveBookingPerCar(s)
    ensures NoReturned(s') && OneLiveBookingPerCar(s')
  {
  }

  /** A successful booking is only possible for a car with no live booking,
      so afterwards the car has exactly one. */
  lemma CreateKeepsOneLive(req: Bookings.BookingRequest, s: Store)
    requires Invariant(s)
    requires Bookings.Create(Post, req, s).response.status == 201
    ensures NoReturned(Bookings.Create(Post, req, s).store)
    ensures OneLiveBookingPerCar(Bookings.Create(Post, req, s).store)
  {
    var s' := Bookings.Create(Post, req, s).store;
    var b := s'.bookings[|s.bookings|];
    assert s'.bookings == s.bookings + [b];
    forall i | 0 <= i < |s.bookings| && s.bookings[i].carId == b.carId
      ensures false
    {
    }
  }

  /** A simulated payment only turns a live booking into an approved one. */
  lemma PayKeepsOneLive(m: Method, req: SimulatedPayment.SimulatedPaymentRequest, now: int, s: Store)
    requires NoReturned(s) && OneLiveBookingPerCar(s)
    ensures NoReturned(SimulatedPayment.Pay(m, req, now, s).store)
    ensures OneLiveBookingPerCar(SimulatedPayment.Pay(m, req, now, s).store)
  {
    var r := SimulatedPayment.Pay(m, req, now, s);
    if r.response.status == 200 {
      var k := BookingAt(s, req.bookingId.value).value;
      assert r.store.bookings == s.bookings[k := s.bookings[k].(status := Approved)];
    }
  }

  /** Every store reachable from an invariant one, in particular from the
      empty store, satisfies the invariant: ids unique, emails and
      registration numbers unique, references resolved, flags consistent,
      and at most one live booking per car. */
  lemma {:induction false} RunPreservesInvariant(reqs: seq<Request>, s: Store)
    requires Invariant(s)
    ensures Invariant(Run(reqs, s))
    decreases |reqs|
  {
    if |reqs| > 0 {
      HandlePreservesInvariant(reqs[0], s);
      RunPreservesInvariant(reqs[1..], Handle(reqs[0], s).store);
    }
  }

  lemma ReachableStoresSatisfyInvariant(reqs: seq<Request>)
    ensures Invariant(Run(reqs, Empty))
  {
    RunPreservesInvariant(reqs, Empty);
  }
}

=== FILE: bookings.dfy ===
/** `POST /api/bookings` (pages/api/bookings/index.js): validate the request,
    resolve the user and the car, refuse a car whose availability flag is
    false, price the booking, insert it as `waiting` and clear the car's
    flag. There is no date-interval check: the flag is the whole policy. */
module Bookings {
  import opened Common
  import opened Model
  import opened Http

  /** The request body, each field carrying the JSON type the booking form
      sends. `None` stands for an absent, null or empty field; a `duration`
      that is absent or null is `None`, and one of 0 is `Some(0)`. Dates
      arrive as instants. */
  datatype BookingRequest = BookingRequest(
    userId: Option<Id>,
    carId: Option<Id>,
    bookPlace: Option<string>,
    bookDate: Option<int>,
    duration: Option<int>,
    destination: Option<string>,
    returnDate: Option<int>)

  /** None of the seven fields is falsy. A zero duration is falsy; a
      negative one is not. */
  predicate HasRequiredFields(req: BookingRequest) {
    && req.userId.Some?
    && req.carId.Some?
    && Truthy(req.bookPlace)
    && req.bookDate.Some?
    && req.duration.Some? && req.duration.value != 0
    && Truthy(req.destination)
    && req.returnDate.Some?
  }

  predicate UserKnown(req: BookingRequest, s: Store)
    requires HasRequiredFields(req)
  {
    UserAt(s, req.userId.value).Some?
  }

  predicate CarKnown(req: BookingRequest, s: Store)
    requires HasRequiredFields(req)
  {
    CarAt(s, req.carId.value).Some?
  }

  /** The car the request names, as `findOne` returns it. */
  function RequestedCar(req: BookingRequest, s: Store): Car
    requires HasRequiredFields(req) && CarKnown(req, s)
  {
    s.cars[CarAt(s, req.carId.value).value]
  }

  /** Every check passes: fields present, user and car found, car flagged available. */
  predicate Bookable(req: BookingRequest, s: Store) {
    HasRequiredFields(req) && UserKnown(req, s) && CarKnown(req, s) && RequestedCar(req, s).available
  }

  function Create(m: Method, req: BookingRequest, s: Store): (r: Outcome)
    ensures m != Post ==> r == Outcome(MethodNotAllowed, s)
    ensures m == Post && !HasRequiredFields(req) ==> r == Reply(400, "Missing required fields", s)
    ensures m == Post && HasRequiredFields(req) && !UserKnown(req, s) ==>
              r == Reply(404, "User not found", s)
    ensures m == Post && HasRequiredFields(req) && UserKnown(req, s) && !CarKnown(req, s) ==>
              r == Reply(404, "Car not found", s)
    ensures m == Post && HasRequiredFields(req) && UserKnown(req, s) && CarKnown(req, s) &&
            !RequestedCar(req, s).available ==>
              r == Reply(400, "Car is not available", s)
    ensures r.response.status == 201 <==> m == Post && Bookable(req, s)
    ensures r.response.status != 201 ==> r.store == s
    ensures r.response.status == 201 ==>
              && AppendsOne(s.bookings, r.store.bookings)
              && var b := r.store.bookings[|s.bookings|];
              && (forall j :: 0 <= j < |s.bookings| ==> s.bookings[j].id != b.id)
              && r.response.body == Created("Booking created successfully", b.id)
              && b.userId == req.userId.value
              && b.carId == req.carId.value
              && b.place == req.bookPlace.value
              && b.bookDate == req.bookDate.value
              && b.duration == req.duration.value
              && b.destination == req.destination.value
              && b.returnDate == req.returnDate.value
              && b.price == RequestedCar(req, s).pricePerDay * req.duration.value
              && b.status == Waiting
    ensures r.response.status == 201 ==>
              var k := CarAt(s, req.carId.value).value;
              && |r.store.cars| == |s.cars|
              && r.store.cars[k] == s.cars[k].(available := false)
              && (forall i :: 0 <= i < |s.cars| && i != k ==> r.store.cars[i] == s.cars[i])
              && r.store.users == s.users
              && r.store.payments == s.payments
              && r.store.feedback == s.feedback
  {
    if m != Post then Outcome(MethodNotAllowed, s)
    else if !HasRequiredFields(req) then Reply(400, "Missing required fields", s)
    else
      var user := UserAt(s, req.userId.value);
      var car := CarAt(s, req.carId.value);
      if user.None? then Reply(404, "User not found", s)
      else if car.None? then Reply(404, "Car not found", s)
      else if !s.cars[car.value].available then Reply(400, "Car is not available", s)
      else
        var c := s.cars[car.value];
        var id := FreshId(s.bookings, (b: Booking) => b.id);
        var booking := Booking(
          id, req.userId.value, req.carId.value, req.bookPlace.value, req.bookDate.value,
          req.duration.value, req.destination.value, req.returnDate.value,
          c.pricePerDay * req.duration.value, Waiting);
        var s' := s.(bookings := s.bookings + [booking],
                     cars := s.cars[car.value := c.(available := false)]);
        assert s'.bookings[..|s.bookings|] == s.bookings;
        Outcome(Response(201, Created("Booking created successfully", id)), s')
  }

  /** Right after a successful booking, any further request for the same
      car by a known user is refused as unavailable. */
  lemma SecondBookingRefused(req1: BookingRequest, req2: BookingRequest, s: Store)
    requires Create(Post, req1, s).response.status == 201
    requires HasRequiredFields(req2) && req2.carId == req1.carId
    requires UserAt(s, req2.userId.value).Some?
    ensures var s' := Create(Post, req1, s).store;
            Create(Post, req2, s') == Reply(400, "Car is not available", s')
  {
    var s' := Create(Post, req1, s).store;
    var k := CarAt(s, req1.carId.value).value;
    FindFirstAfterUpdate(s.cars, (c: Car) => c.id == req1.carId.value, k, s.cars[k].(available := false));
    assert s'.cars == s.cars[k := s.cars[k].(available := false)];
  }

  /** The price is proportional to the duration: two bookable requests
      that differ only in their duration are priced in the ratio of their
      durations. */
  lemma PriceProportionalToDuration(req: BookingRequest, d: int, s: Store)
    requires Bookable(req, s) && Bookable(req.(duration := Some(d)), s)
    ensures var p1 := Create(Post, req, s).store.bookings[|s.bookings|].price;
            var p2 := Create(Post, req.(duration := Some(d)), s).store.bookings[|s.bookings|].price;
            p1 * d == p2 * req.duration.value
  {
    var rate := RequestedCar(req, s).pricePerDay;
    assert RequestedCar(req.(duration := Some(d)), s) == RequestedCar(req, s);
    assert rate * req.duration.value * d == rate * d * req.duration.value;
  }

  /** The validation lets a negative duration through, and the booking is
      then stored with a negative price. */
  lemma NegativeDurationAccepted()
    ensures var s := Store([User(1, Some("a@b.c"), Hash("pw"), None, None, None, false)],
                           [Car(2, "Make", "Model", 2020, "red", "R-1", 5000, None, true)],
                           [], [], []);
            var req := BookingRequest(Some(1), Some(2), Some("City"), Some(0), Some(-2), Some("Town"), Some(0));
            var r := Create(Post, req, s);
            r.response.status == 201 && r.store.bookings[0].price == -10000
  {
  }

  /** Creating a booking keeps the store consistent: fresh booking id,
      resolved references, and the booked car now flagged unavailable. */
  lemma CreatePreservesConsistent(m: Method, req: BookingRequest, s: Store)
    requires Consistent(s)
    ensures Consistent(Create(m, req, s).store)
  {
    var r := Create(m, req, s);
    if r.response.status == 201 {
      var k := CarAt(s, req.carId.value).value;
      var b := r.store.bookings[|s.bookings|];
      assert r.store.bookings == s.bookings + [b];
      assert r.store == s.(bookings := s.bookings + [b], cars := s.cars[k := s.cars[k].(available := false)]);
      assert b.userId in UserIds(s) by {
        assert s.users[UserAt(s, req.userId.value).value] in s.users;
      }
      InsertBookingPreserves(s, k, b);
    }
  }

  /** The store change of a successful booking, taken on its own: append a
      non-returned booking with a fresh id for a known user and for the
      car at `k`, and clear that car's flag. */
  lemma InsertBookingPreserves(s: Store, k: nat, b: Booking)
    requires Consistent(s)
    requires k < |s.cars| && b.carId == s.cars[k].id
    requires b.userId in UserIds(s)
    requires forall j :: 0 <= j < |s.bookings| ==> s.bookings[j].id != b.id
    ensures Consistent(s.(bookings := s.bookings + [b], cars := s.cars[k := s.cars[k].(available := false)]))
  {
    var s' := s.(bookings := s.bookings + [b], cars := s.cars[k := s.cars[k].(available := false)]);
    assert UserIds(s') == UserIds(s);
    ClearFlagKeepsCarIds(s, k);
    assert BookingIds(s) <= BookingIds(s') by {
      forall x | x in s.bookings ensures x in s'.bookings {
        var i :| 0 <= i < |s.bookings| && s.bookings[i] == x;
        assert s'.bookings[i] == x;
      }
    }
    assert s.cars[k] in s.cars;
    forall i, j | 0 <= i < |s'.bookings| && 0 <= j < |s'.cars| &&
                  s'.bookings[i].status != Returned && s'.cars[j].id == s'.bookings[i].carId
      ensures !s'.cars[j].available
    {
      if j != k {
        assert s'.cars[j] == s.cars[j];
        if i == |s.bookings| {
          assert false;
        } else {
          assert s'.bookings[i] == s.bookings[i];
        }
      }
    }
  }

  lemma ClearFlagKeepsCarIds(s: Store, k: nat)
    requires k < |s.cars|
    ensures CarIds(s.(cars := s.cars[k := s.cars[k].(available := false)])) == CarIds(s)
  {
    var s' := s.(cars := s.cars[k := s.cars[k].(available := false)]);
    forall c | c in s'.cars ensures c.id in CarIds(s) {
      var i :| 0 <= i < |s'.cars| && s'.cars[i] == c;
      assert s.cars[i] in s.cars;
    }
    forall c | c in s.cars ensures c.id in CarIds(s') {
      var i :| 0 <= i < |s.cars| && s.cars[i] == c;
      assert s'.cars[i] in s'.cars;
    }
  }
}

=== FILE: common.dfy ===
/** Shared vocabulary of the model: optional values, document ids and the
    collection primitives the handlers rely on from the document store
    (`findOne`, the id `insertOne` allocates, `countDocuments`, `$sum`).

    A collection is a sequence of documents in natural (insertion) order;
    every document carries its own id. */
module Common {

  datatype Option<T> = None | Some(value: T)

  /** An abstract document id; ids are taken to be well-formed, so the
      ObjectId parsing failures of the driver do not arise. */
  type Id = nat

  /** The position of the first document satisfying `p`, which is the
      document `findOne` (and `updateOne`) selects. */
  function FindFirst<T>(xs: seq<T>, p: T -> bool): (r: Option<nat>)
    ensures r.Some? ==> r.value < |xs| && p(xs[r.value])
    ensures r.Some? ==> forall j :: 0 <= j < r.value ==> !p(xs[j])
    ensures r.None? <==> forall j :: 0 <= j < |xs| ==> !p(xs[j])
  {
    if |xs| == 0 then None
    else if p(xs[0]) then Some(0)
    else
      match FindFirst(xs[1..], p)
      case None => None
      case Some(k) => Some(k + 1)
  }

  /** The id `insertOne` gives a new document: larger than every id already
      in the collection, hence distinct from all of them. */
  function FreshId<T>(xs: seq<T>, id: T -> Id): (r: Id)
    ensures forall j :: 0 <= j < |xs| ==> id(xs[j]) < r
  {
    if |xs| == 0 then 0
    else
      var rest := FreshId(xs[..|xs| - 1], id);
      var last := id(xs[|xs| - 1]);
      if last < rest then rest else last + 1
  }

  /** `countDocuments` with a filter. */
  function Count<T>(xs: seq<T>, p: T -> bool): (n: nat)
    ensures n <= |xs|
    ensures n == 0 <==> forall j :: 0 <= j < |xs| ==> !p(xs[j])
  {
    if |xs| == 0 then 0
    else Count(xs[..|xs| - 1], p) + (if p(xs[|xs| - 1]) then 1 else 0)
  }

  /** A `$sum` over one numeric field of every document: nothing sums to 0,
      and a single document to its own value. */
  function Sum<T>(xs: seq<T>, f: T -> int): (r: int)
    ensures |xs| == 0 ==> r == 0
    ensures |xs| == 1 ==> r == f(xs[0])
  {
    if |xs| == 0 then 0
    else
      assert |xs| == 1 ==> xs[..|xs| - 1] == [];
      Sum(xs[..|xs| - 1], f) + f(xs[|xs| - 1])
  }

  /** `Math.round((n / d) * 100)` computed on exact rationals: the integer
      nearest to 100·n/d, halves rounded up. */
  function RoundedPercent(n: int, d: int): (r: int)
    requires d > 0
    ensures 2 * d * r - d <= 200 * n < 2 * d * r + d
  {
    var q := (200 * n + d) / (2 * d);
    assert q * (2 * d) <= 200 * n + d < q * (2 * d) + 2 * d;
    q
  }

  /** A share of a whole, as a rounded percentage, lies between 0 and 100. */
  lemma PercentOfWholeInRange(n: int, d: int)
    requires d > 0 && 0 <= n <= d
    ensures 0 <= RoundedPercent(n, d) <= 100
  {
    var r := RoundedPercent(n, d);
    if r < 0 {
      MulMonotone(d, r, -1);
      assert false;
    }
    if r > 100 {
      MulMonotone(d, 101, r);
      assert false;
    }
  }

  lemma MulMonotone(a: int, b: int, c: int)
    requires a >= 0 && b <= c
    ensures a * b <= a * c
  {
    assert a * c - a * b == a * (c - b);
  }

  /** The first match is determined by its defining property. */
  lemma FirstMatchIs<T>(xs: seq<T>, p: T -> bool, k: nat)
    requires k < |xs| && p(xs[k])
    requires forall j :: 0 <= j < k ==> !p(xs[j])
    ensures FindFirst(xs, p) == Some(k)
  {
  }

  /** Replacing the selected document by another that still matches keeps
      the selection where it was. */
  lemma FindFirstAfterUpdate<T>(xs: seq<T>, p: T -> bool, k: nat, y: T)
    requires FindFirst(xs, p) == Some(k)
    requires p(y)
    ensures FindFirst(xs[k := y], p) == Some(k)
  {
    var xs' := xs[k := y];
    assert forall j :: 0 <= j < k ==> xs'[j] == xs[j];
    FirstMatchIs(xs', p, k);
  }

  /** Appending a document leaves an existing selection alone, and is
      selected itself when nothing before it matched. */
  lemma FindFirstAfterAppend<T>(xs: seq<T>, p: T -> bool, y: T)
    ensures FindFirst(xs, p).Some? ==> FindFirst(xs + [y], p) == FindFirst(xs, p)
    ensures FindFirst(xs, p).None? && p(y) ==> FindFirst(xs + [y], p) == Some(|xs|)
  {
    var xs' := xs + [y];
    assert forall j :: 0 <= j < |xs| ==> xs'[j] == xs[j];
    var q := FindFirst(xs, p);
    if q.Some? {
      FirstMatchIs(xs', p, q.value);
    } else if p(y) {
      FirstMatchIs(xs', p, |xs|);
    }
  }

  /** Counting distributes over concatenation: appending documents adds
      exactly the count of the appended ones. */
  lemma {:induction false} CountAppend<T>(a: seq<T>, b: seq<T>, p: T -> bool)
    ensures Count(a + b, p) == Count(a, p) + Count(b, p)
    decreases |b|
  {
    if |b| == 0 {
      assert a + b == a;
    } else {
      var b' := b[..|b| - 1];
      assert (a + b)[..|a + b| - 1] == a + b';
      CountAppend(a, b', p);
    }
  }

  /** A filter implied by another never counts more documents. */
  lemma {:induction false} CountMonotone<T>(xs: seq<T>, p: T -> bool, q: T -> bool)
    requires forall x :: p(x) ==> q(x)
    ensures Count(xs, p) <= Count(xs, q)
    decreases |xs|
  {
    if |xs| > 0 {
      CountMonotone(xs[..|xs| - 1], p, q);
    }
  }

  /** Replacing one document changes the count only by what the old and
      the new document contribute. */
  lemma {:induction false} CountAfterUpdate<T>(xs: seq<T>, p: T -> bool, k: nat, y: T)
    requires k < |xs|
    ensures Count(xs[k := y], p) + (if p(xs[k]) then 1 else 0) == Count(xs, p) + (if p(y) then 1 else 0)
    decreases |xs|
  {
    var n := |xs| - 1;
    var xs' := xs[k := y];
    assert Count(xs', p) == Count(xs'[..n], p) + (if p(xs'[n]) then 1 else 0);
    assert Count(xs, p) == Count(xs[..n], p) + (if p(xs[n]) then 1 else 0);
    if k == n {
      assert xs'[..n] == xs[..n];
    } else {
      assert xs'[..n] == xs[..n][k := y];
      assert xs'[n] == xs[n];
      CountAfterUpdate(xs[..n], p, k, y);
    }
  }

  /** Summing distributes over concatenation. */
  lemma {:induction false} SumAppend<T>(a: seq<T>, b: seq<T>, f: T -> int)
    ensures Sum(a + b, f) == Sum(a, f) + Sum(b, f)
    decreases |b|
  {
    if |b| == 0 {
      assert a + b == a;
    } else {
      var b' := b[..|b| - 1];
      assert (a + b)[..|a + b| - 1] == a + b';
      SumAppend(a, b', f);
    }
  }
}

=== FILE: dashboard_stats.dfy ===
/** `GET /api/admin/dashboard-stats` (pages/api/admin/dashboard-stats.js):
    read-only aggregates over the store for the admin dashboard. */
module DashboardStats {
  import opened Common
  import opened Model
  import opened Http
  import opened Ordering
  import Bookings
  import SimulatedPayment
  import CardPayment

  function Amount(p: Payment): int { p.amount }
  function BookDate(b: Booking): int { b.bookDate }
  function PaymentDate(p: Payment): int { p.date }
  function BookingCount(c: CarStat): int { c.bookingCount }

  /** What the dashboard counts as active: `pending` or `approved`; a
      `waiting` booking is not active. */
  predicate Active(b: Booking) { b.status == Pending || b.status == Approved }

  predicate Completed(b: Booking) { b.status == Approved }

  /** `$sum` of the payment amounts; no payments gives 0. */
  function Revenue(payments: seq<Payment>): int {
    Sum(payments, Amount)
  }

  /** The number of bookings whose `car_id` is the given car's id. */
  function BookingsOf(s: Store, carId: Id): nat {
    Count(s.bookings, (b: Booking) => b.carId == carId)
  }

  /** The share of approved bookings as a rounded percentage; 0 when there
      are no bookings. */
  function CompletionRate(bookings: seq<Booking>): (r: int)
    ensures 0 <= r <= 100
    ensures |bookings| == 0 ==> r == 0
    ensures |bookings| > 0 ==>
              var n := Count(bookings, Completed);
              2 * |bookings| * r - |bookings| <= 200 * n < 2 * |bookings| * r + |bookings|
  {
    if |bookings| > 0 then
      PercentOfWholeInRange(Count(bookings, Completed), |bookings|);
      RoundedPercent(Count(bookings, Completed), |bookings|)
    else 0
  }

  /** The `$lookup` + `$project` stage: one entry per car with the number of
      bookings that reference it. */
  function CarStats(s: Store): (r: seq<CarStat>)
    ensures |r| == |s.cars|
    ensures forall i :: 0 <= i < |r| ==>
              r[i].id == s.cars[i].id && r[i].model == s.cars[i].model &&
              r[i].bookingCount == BookingsOf(s, s.cars[i].id)
    ensures forall c :: c in r ==> c.bookingCount == BookingsOf(s, c.id)
  {
    seq(|s.cars|, i requires 0 <= i < |s.cars| =>
      CarStat(s.cars[i].id, s.cars[i].model, BookingsOf(s, s.cars[i].id)))
  }

  function TopCars(s: Store): (r: seq<CarStat>)
    ensures IsTopK(r, CarStats(s), BookingCount, 3)
    ensures forall i :: 0 <= i < |r| ==> r[i].bookingCount == BookingsOf(s, r[i].id)
  {
    var all := CarStats(s);
    var r := TopK(all, BookingCount, 3);
    DrawnFrom(r, all);
    r
  }

  function Handle(m: Method, s: Store): (r: Outcome)
    ensures r.store == s
    ensures m != Get ==> r.response == MethodNotAllowed
    ensures m == Get ==>
              && r.response.status == 200
              && r.response.body.Report?
              && var st := r.response.body.stats;
              && st.totalRevenue == Revenue(s.payments)
              && st.activeBookings == Count(s.bookings, Active)
              && st.totalCars == |s.cars|
              && st.completionRate == CompletionRate(s.bookings)
              && IsTopK(st.recentBookings, s.bookings, BookDate, 5)
              && IsTopK(st.recentPayments, s.payments, PaymentDate, 5)
              && st.topCars == TopCars(s)
  {
    if m != Get then Outcome(MethodNotAllowed, s)
    else
      var st := Stats(
        Revenue(s.payments),
        Count(s.bookings, Active),
        |s.cars|,
        CompletionRate(s.bookings),
        TopK(s.bookings, BookDate, 5),
        TopK(s.payments, PaymentDate, 5),
        TopCars(s));
      Outcome(Response(200, Report(st)), s)
  }

  /** No booking is approved without being active, so the completed count
      never exceeds the active one. */
  lemma CompletedAreActive(bookings: seq<Booking>)
    ensures Count(bookings, Completed) <= Count(bookings, Active)
  {
    CountMonotone(bookings, Completed, Active);
  }

  /** A simulated payment adds exactly its submitted amount to the revenue. */
  lemma RevenueAfterSimulatedPayment(m: Method, req: SimulatedPayment.SimulatedPaymentRequest, now: int, s: Store)
    requires SimulatedPayment.Pay(m, req, now, s).response.status == 200
    ensures Revenue(SimulatedPayment.Pay(m, req, now, s).store.payments) == Revenue(s.payments) + req.amount.value
  {
    var s' := SimulatedPayment.Pay(m, req, now, s).store;
    var p := s'.payments[|s.payments|];
    assert s'.payments == s.payments + [p];
    SumAppend(s.payments, [p], Amount);
  }

  /** A card payment adds the booking's price to the revenue. */
  lemma RevenueAfterCardPayment(m: Method, req: CardPayment.CardPaymentRequest, now: int, s: Store)
    requires CardPayment.Pay(m, req, now, s).response.status == 201
    ensures Revenue(CardPayment.Pay(m, req, now, s).store.payments) ==
            Revenue(s.payments) + s.bookings[BookingAt(s, req.bookingId.value).value].price
  {
    var s' := CardPayment.Pay(m, req, now, s).store;
    var p := s'.payments[|s.payments|];
    assert s'.payments == s.payments + [p];
    SumAppend(s.payments, [p], Amount);
  }

  /** A new booking is `waiting`, so it does not change the active count. */
  lemma NewBookingNotActive(m: Method, req: Bookings.BookingRequest, s: Store)
    requires Bookings.Create(m, req, s).response.status == 201
    ensures Count(Bookings.Create(m, req, s).store.bookings, Active) == Count(s.bookings, Active)
  {
    var s' := Bookings.Create(m, req, s).store;
    var b := s'.bookings[|s.bookings|];
    assert s'.bookings == s.bookings + [b];
    CountAppend(s.bookings, [b], Active);
    assert Count([b], Active) == Count([], Active) by {
      assert [b][..0] == [];
    }
  }

  /** Paying for a waiting booking makes it active: the count grows by one. */
  lemma PaymentActivatesWaitingBooking(m: Method, req: SimulatedPayment.SimulatedPaymentRequest, now: int, s: Store)
    requires SimulatedPayment.Pay(m, req, now, s).response.status == 200
    requires s.bookings[BookingAt(s, req.bookingId.value).value].status == Waiting
    ensures Count(SimulatedPayment.Pay(m, req, now, s).store.bookings, Active) == Count(s.bookings, Active) + 1
  {
    var s' := SimulatedPayment.Pay(m, req, now, s).store;
    var k := BookingAt(s, req.bookingId.value).value;
    assert s'.bookings == s.bookings[k := s.bookings[k].(status := Approved)];
    CountAfterUpdate(s.bookings, Active, k, s.bookings[k].(status := Approved));
  }
}

=== FILE: dashboard_view.dfy ===
/** The two pure computations of the admin dashboard page
    (pages/admin/dashboard.js): the "time ago" label of a payment and the
    utilization rate shown for each top car. */
module DashboardView {
  import opened Common

  const MinuteMs := 60000
  const HourMs := 3600000
  const DayMs := 86400000

  /** The unit `getTimeAgo` picks and the number it prints with it. */
  datatype Elapsed = MinutesAgo(n: int) | HoursAgo(n: int) | DaysAgo(n: int)

  /** The bucket of an elapsed time of `diffMs` milliseconds. A negative
      (future) difference is reported in minutes. Each number is the floor
      of the elapsed time in its unit. */
  function TimeAgo(diffMs: int): (r: Elapsed)
    ensures r.MinutesAgo? <==> diffMs < HourMs
    ensures r.HoursAgo? <==> HourMs <= diffMs < DayMs
    ensures r.DaysAgo? <==> DayMs <= diffMs
    ensures r.MinutesAgo? ==> r.n * MinuteMs <= diffMs < (r.n + 1) * MinuteMs
    ensures r.HoursAgo? ==> r.n * HourMs <= diffMs < (r.n + 1) * HourMs
    ensures r.DaysAgo? ==> r.n * DayMs <= diffMs < (r.n + 1) * DayMs
  {
    // Dafny's division by a positive constant is the floor, as Math.floor is here.
    var minutes := diffMs / MinuteMs;
    if minutes < 60 then MinutesAgo(minutes)
    else
      var hours := minutes / 60;
      FloorOfFloor(diffMs, MinuteMs, 60);
      if hours < 24 then HoursAgo(hours)
      else
        FloorOfFloor(diffMs, HourMs, 24);
        DaysAgo(hours / 24)
  }

  /** Flooring twice is flooring once by the product. */
  lemma FloorOfFloor(x: int, a: int, b: int)
    requires a > 0 && b > 0
    ensures (x / a) / b == x / (a * b)
  {
    var q := x / a;
    var p := q / b;
    DivBounds(x, a);
    DivBounds(q, b);
    // p*b <= q, so a*(p*b) <= a*q <= x
    MulMonotone(a, p * b, q);
    // q + 1 <= p*b + b, so x < a*(q+1) <= a*(p*b + b)
    MulMonotone(a, q + 1, p * b + b);
    assert a * (p * b) == p * (a * b);
    assert a * (p * b + b) == (p + 1) * (a * b);
    assert a * (q + 1) == q * a + a;
    DivUnique(x, a * b, p);
  }

  lemma DivBounds(x: int, d: int)
    requires d > 0
    ensures (x / d) * d <= x < (x / d) * d + d
  {
  }

  /** The floor of x/d is the only p with p·d <= x < (p+1)·d. */
  lemma DivUnique(x: int, d: int, p: int)
    requires d > 0 && p * d <= x < (p + 1) * d
    ensures x / d == p
  {
    var q := x / d;
    DivBounds(x, d);
    if q < p {
      MulMonotone(d, q + 1, p);
      assert false;
    } else if q > p {
      MulMonotone(d, p + 1, q);
      assert false;
    }
  }

  function Rank(e: Elapsed): nat {
    match e
    case MinutesAgo(_) => 0
    case HoursAgo(_) => 1
    case DaysAgo(_) => 2
  }

  /** An older date never gets a smaller unit, and within one unit never a
      smaller number. */
  lemma TimeAgoMonotone(d1: int, d2: int)
    requires d1 <= d2
    ensures Rank(TimeAgo(d1)) <= Rank(TimeAgo(d2))
    ensures Rank(TimeAgo(d1)) == Rank(TimeAgo(d2)) ==> TimeAgo(d1).n <= TimeAgo(d2).n
  {
    var e1 := TimeAgo(d1);
    var e2 := TimeAgo(d2);
    if Rank(e1) == Rank(e2) && e1.n > e2.n {
      if e1.MinutesAgo? {
        MulMonotone(MinuteMs, e2.n + 1, e1.n);
      } else if e1.HoursAgo? {
        MulMonotone(HourMs, e2.n + 1, e1.n);
      } else {
        MulMonotone(DayMs, e2.n + 1, e1.n);
      }
    }
  }

  /** `Math.round(bookingCount / (activeBookings || 1) * 100)`: with no
      active bookings the count is divided by 1. */
  function UtilizationRate(bookingCount: nat, activeBookings: nat): (r: int)
    ensures var d := if activeBookings == 0 then 1 else activeBookings;
            2 * d * r - d <= 200 * bookingCount < 2 * d * r + d
    ensures activeBookings == 0 ==> r == 100 * bookingCount
    ensures bookingCount <= activeBookings ==> 0 <= r <= 100
  {
    var d := if activeBookings == 0 then 1 else activeBookings;
    var r := RoundedPercent(bookingCount, d);
    if bookingCount <= d then PercentOfWholeInRange(bookingCount, d); r else r
  }
}

=== FILE: feedback.dfy ===
/** `/api/feedback` (pages/api/feedback.js): POST stores a comment from a
    known user; GET lists every comment, newest first. */
module FeedbackApi {
  import opened Common
  import opened Model
  import opened Http
  import opened Ordering

  datatype FeedbackRequest = FeedbackRequest(userId: Option<Id>, comment: Option<string>)

  function CreatedAt(f: Feedback): int {
    f.createdAt
  }

  predicate HasRequiredFields(req: FeedbackRequest) {
    req.userId.Some? && Truthy(req.comment)
  }

  predicate UserKnown(req: FeedbackRequest, s: Store) {
    HasRequiredFields(req) && UserAt(s, req.userId.value).Some?
  }

  /** `now` is the clock reading stored as `created_at`. */
  function Handle(m: Method, req: FeedbackRequest, now: int, s: Store): (r: Outcome)
    ensures m != Post && m != Get ==> r == Outcome(MethodNotAllowed, s)
    ensures m == Post && !HasRequiredFields(req) ==> r == Reply(400, "Missing required fields", s)
    ensures m == Post && HasRequiredFields(req) && !UserKnown(req, s) ==> r == Reply(404, "User not found", s)
    ensures m == Post ==> (r.response.status == 201 <==> UserKnown(req, s))
    ensures r.response.status != 201 ==> r.store == s
    ensures m == Post && r.response.status == 201 ==>
              && AppendsOne(s.feedback, r.store.feedback)
              && var f := r.store.feedback[|s.feedback|];
              && (forall j :: 0 <= j < |s.feedback| ==> s.feedback[j].id != f.id)
              && r.response.body == Created("Feedback submitted successfully", f.id)
              && f.userId == req.userId.value && f.comment == req.comment.value && f.createdAt == now
    ensures m == Get ==>
              && r.response.status == 200
              && r.response.body.FeedbackList?
              && multiset(r.response.body.feedback) == multiset(s.feedback)
              && SortedDesc(r.response.body.feedback, CreatedAt)
    ensures r.store.users == s.users && r.store.cars == s.cars &&
            r.store.bookings == s.bookings && r.store.payments == s.payments
  {
    if m == Post then
      if !HasRequiredFields(req) then Reply(400, "Missing required fields", s)
      else if UserAt(s, req.userId.value).None? then Reply(404, "User not found", s)
      else
        var f := Feedback(FreshId(s.feedback, (f: Feedback) => f.id), req.userId.value, req.comment.value, now);
        var s' := s.(feedback := s.feedback + [f]);
        assert s'.feedback[..|s.feedback|] == s.feedback;
        Outcome(Response(201, Created("Feedback submitted successfully", f.id)), s')
    else if m == Get then
      Outcome(Response(200, FeedbackList(SortDesc(s.feedback, CreatedAt))), s)
    else
      Outcome(MethodNotAllowed, s)
  }

  /** A comment posted later than every stored one heads the next listing. */
  lemma PostedFeedbackListedFirst(req: FeedbackRequest, now: int, s: Store)
    requires UserKnown(req, s)
    requires forall j :: 0 <= j < |s.feedback| ==> s.feedback[j].createdAt < now
    ensures var s' := Handle(Post, req, now, s).store;
            var listing := Handle(Get, req, now, s').response.body.feedback;
            |listing| == |s.feedback| + 1 && listing[0] == s'.feedback[|s.feedback|]
  {
    var s' := Handle(Post, req, now, s).store;
    var f := s'.feedback[|s.feedback|];
    assert s'.feedback == s.feedback + [f];
    LargestFirst(s.feedback, f, CreatedAt);
  }

  lemma HandlePreservesConsistent(m: Method, req: FeedbackRequest, now: int, s: Store)
    requires Consistent(s)
    ensures Consistent(Handle(m, req, now, s).store)
  {
    var r := Handle(m, req, now, s);
    if r.response.status == 201 {
      var f := r.store.feedback[|s.feedback|];
      assert r.store == s.(feedback := s.feedback + [f]);
      assert s.users[UserAt(s, req.userId.value).value] in s.users;
      AppendFeedbackPreserves(s, f);
    }
  }
}

=== FILE: http.dfy ===
/** Requests and responses as the handlers see them: the HTTP method, the
    JSON body each handler sends back with its status code, and the
    JavaScript truthiness tests the handlers apply to request fields. */
module Http {
  import opened Common
  import opened Model

  datatype Method = Get | Post | Put | Patch | Delete

  /** The user object `login` returns: no password field. */
  datatype SessionUser = SessionUser(id: Id, email: Option<string>, name: Option<string>, isAdmin: bool)

  /** A user as the admin listing returns it: every field but the password. */
  datatype Profile = Profile(
    id: Id,
    email: Option<string>,
    name: Option<string>,
    phone: Option<string>,
    address: Option<string>,
    isAdmin: bool)

  /** One entry of the dashboard's top-cars list. The projection also asks
      for `brand`, a field car documents do not carry, so it is absent. */
  datatype CarStat = CarStat(id: Id, model: string, bookingCount: nat)

  datatype Stats = Stats(
    totalRevenue: int,
    activeBookings: nat,
    totalCars: nat,
    completionRate: int,
    recentBookings: seq<Booking>,
    recentPayments: seq<Payment>,
    topCars: seq<CarStat>)

  /** `Created` carries the id the handler reports (`bookingId`,
      `paymentId`, `userId`, `carId` or `feedbackId`). */
  datatype Body =
    | Message(text: string)
    | Created(text: string, id: Id)
    | LoggedIn(text: string, user: SessionUser)
    | FeedbackList(feedback: seq<Feedback>)
    | UserList(users: seq<Profile>)
    | Report(stats: Stats)

  datatype Response = Response(status: int, body: Body)

  /** What a handler produces: the response and the store afterwards. */
  datatype Outcome = Outcome(response: Response, store: Store)

  const MethodNotAllowed := Response(405, Message("Method Not Allowed"))

  const ServerError := Response(500, Message("Something went wrong"))

  /** A response that leaves the store as it was. */
  function Reply(status: int, text: string, s: Store): Outcome {
    Outcome(Response(status, Message(text)), s)
  }

  /** JavaScript truthiness of an optional string: absent and `""` are falsy. */
  predicate Truthy(field: Option<string>) {
    field.Some? && field.value != ""
  }
}

=== FILE: login.dfy ===
/** `POST /api/auth/login` (pages/api/auth/login.js): look the user up by
    email and compare the password with the stored digest. The handler only
    reads the store; on success it returns the user without the password. */
module Login {
  import opened Common
  import opened Model
  import opened Http
  import Register

  datatype LoginRequest = LoginRequest(email: Option<string>, password: Option<string>)

  predicate HasCredentials(req: LoginRequest) {
    Truthy(req.email) && Truthy(req.password)
  }

  /** The user `findOne({email})` returns, if any. */
  function Candidate(req: LoginRequest, s: Store): Option<User> {
    match UserWithEmail(s, req.email)
    case None => None
    case Some(k) => Some(s.users[k])
  }

  function Project(u: User): SessionUser {
    SessionUser(u.id, u.email, u.name, u.isAdmin)
  }

  function Login(m: Method, req: LoginRequest, s: Store): (r: Outcome)
    ensures r.store == s
    ensures m != Post ==> r.response == MethodNotAllowed
    ensures m == Post && !HasCredentials(req) ==>
              r.response == Response(400, Message("Email and password are required"))
    ensures m == Post && HasCredentials(req) && Candidate(req, s).None? ==>
              r.response == Response(400, Message("Invalid credentials"))
    ensures m == Post && HasCredentials(req) && Candidate(req, s).Some? &&
            !Matches(req.password.value, Candidate(req, s).value.password) ==>
              r.response == Response(401, Message("Invalid credentials"))
    ensures r.response.status == 200 <==>
              && m == Post && HasCredentials(req) && Candidate(req, s).Some?
              && Matches(req.password.value, Candidate(req, s).value.password)
    ensures r.response.status == 200 ==>
              var u := Candidate(req, s).value;
              && u in s.users && u.email == req.email
              && r.response.body == LoggedIn("Login successful", SessionUser(u.id, u.email, u.name, u.isAdmin))
  {
    if m != Post then Outcome(MethodNotAllowed, s)
    else if !HasCredentials(req) then Reply(400, "Email and password are required", s)
    else
      match Candidate(req, s)
      case None => Reply(400, "Invalid credentials", s)
      case Some(u) =>
        if !Matches(req.password.value, u.password) then Reply(401, "Invalid credentials", s)
        else Outcome(Response(200, LoggedIn("Login successful", Project(u))), s)
  }

  /** Registering and then logging in with the same email and password
      signs in as the user just created, who is not an administrator. Any
      other non-empty password signs in exactly when it agrees with the
      registered one on the characters bcrypt reads, and is refused with
      401 otherwise. */
  lemma RegisterThenLogin(reg: Register.RegisterRequest, pw: string, s: Store)
    requires Truthy(reg.email) && Truthy(reg.password)
    requires Register.Register(Post, reg, s).response.status == 201
    ensures var s' := Register.Register(Post, reg, s).store;
            var u := s'.users[|s.users|];
            && Login(Post, LoginRequest(reg.email, reg.password), s').response ==
                 Response(200, LoggedIn("Login successful", SessionUser(u.id, reg.email, reg.name, false)))
            && (pw != "" ==>
                 Login(Post, LoginRequest(reg.email, Some(pw)), s').response ==
                   if Significant(pw) == Significant(reg.password.value)
                   then Response(200, LoggedIn("Login successful", SessionUser(u.id, reg.email, reg.name, false)))
                   else Response(401, Message("Invalid credentials")))
  {
    var s' := Register.Register(Post, reg, s).store;
    var u := s'.users[|s.users|];
    assert s'.users == s.users + [u];
    FindFirstAfterAppend(s.users, (x: User) => x.email == reg.email, u);
  }
}

=== FILE: model.dfy ===
/** The document store the API handlers read and write: the `users`,
    `cars`, `bookings`, `payment` and `feedback` collections of the
    `car_rental_db` database, and the invariants the handlers are meant to
    keep over them. */
module Model {
  import opened Common

  /** The `book_status` values the code base writes: `waiting` (booking
      creation), `approved` (simulated payment), `approve` and `returned`
      (the admin status route), and `pending`, which the dashboard counts. */
  datatype Status = Waiting | Pending | Approve | Approved | Returned

  /** A bcrypt digest, represented by its cost factor and the part of the
      secret it commits to; only `Matches` looks inside it. */
  datatype Digest = Bcrypt(rounds: nat, secret: string)

  /** The salt rounds `register` passes to the hash. */
  const SaltRounds: nat := 10

  /** bcrypt reads at most this many bytes of a password; the rest is ignored. */
  const BcryptMaxLength: nat := 72

  /** The part of a password bcrypt reads. Characters stand for bytes. */
  function Significant(password: string): (r: string)
    ensures |r| == if |password| < BcryptMaxLength then |password| else BcryptMaxLength
    ensures password == r + password[|r|..]
  {
    if |password| < BcryptMaxLength then password else password[..BcryptMaxLength]
  }

  /** `bcrypt.hash(password, 10)`. */
  function Hash(password: string): (d: Digest)
    ensures Matches(password, d)
    ensures d.rounds == SaltRounds
    ensures |d.secret| <= BcryptMaxLength
  {
    Bcrypt(SaltRounds, Significant(password))
  }

  /** `bcrypt.compare`: true exactly when the password agrees with the one
      the digest was made from on the bytes bcrypt reads. */
  predicate Matches(password: string, d: Digest) {
    Significant(password) == d.secret
  }

  /** A password matches a digest exactly when it agrees with the hashed
      password on the first 72 characters: passwords that differ only
      beyond that point are interchangeable. */
  lemma MatchesHash(password: string, original: string)
    ensures Matches(password, Hash(original)) <==>
              if |password| < BcryptMaxLength || |original| < BcryptMaxLength then password == original
              else password[..BcryptMaxLength] == original[..BcryptMaxLength]
  {
  }

  /** A 73-character password and a different one sharing its first 72
      characters are accepted for each other. */
  lemma LongPasswordsCollide()
    ensures var registered := seq(73, _ => 'a');
            var attempt := seq(72, _ => 'a') + "b";
            attempt != registered && Matches(attempt, Hash(registered))
  {
    var registered := seq(73, _ => 'a');
    var attempt := seq(72, _ => 'a') + "b";
    assert attempt[72] != registered[72];
    assert attempt[..72] == registered[..72];
  }

  /** Fields a request may leave out are stored as given; `None` is a null
      or missing field. */
  datatype User = User(
    id: Id,
    email: Option<string>,
    password: Digest,
    name: Option<string>,
    phone: Option<string>,
    address: Option<string>,
    isAdmin: bool)

  /** Prices are integers (cents); `imageUrl` is the stored path of the
      uploaded picture, if any. */
  datatype Car = Car(
    id: Id,
    make: string,
    model: string,
    year: int,
    color: string,
    registration: string,
    pricePerDay: int,
    imageUrl: Option<string>,
    available: bool)

  /** Dates are instants in milliseconds. */
  datatype Booking = Booking(
    id: Id,
    userId: Id,
    carId: Id,
    place: string,
    bookDate: int,
    duration: int,
    destination: string,
    returnDate: int,
    price: int,
    status: Status)

  /** A transaction id: a fixed prefix followed by the clock reading. */
  datatype Transaction = Transaction(prefix: string, stamp: int)

  /** `lastFour` is present on card payments only. */
  datatype Payment = Payment(
    id: Id,
    bookingId: Id,
    paymentMethod: string,
    lastFour: Option<string>,
    amount: int,
    date: int,
    transaction: Transaction)

  datatype Feedback = Feedback(id: Id, userId: Id, comment: string, createdAt: int)

  datatype Store = Store(
    users: seq<User>,
    cars: seq<Car>,
    bookings: seq<Booking>,
    payments: seq<Payment>,
    feedback: seq<Feedback>)

  const Empty := Store([], [], [], [], [])

  // Lookups: the position `findOne` selects.

  function UserAt(s: Store, id: Id): Option<nat> {
    FindFirst(s.users, (u: User) => u.id == id)
  }

  function UserWithEmail(s: Store, email: Option<string>): Option<nat> {
    FindFirst(s.users, (u: User) => u.email == email)
  }

  function CarAt(s: Store, id: Id): Option<nat> {
    FindFirst(s.cars, (c: Car) => c.id == id)
  }

  function CarWithRegistration(s: Store, registration: string): Option<nat> {
    FindFirst(s.cars, (c: Car) => c.registration == registration)
  }

  function BookingAt(s: Store, id: Id): Option<nat> {
    FindFirst(s.bookings, (b: Booking) => b.id == id)
  }

  // Frames.

  /** `after` is `before` with one document appended. */
  ghost predicate AppendsOne<T>(before: seq<T>, after: seq<T>) {
    |after| == |before| + 1 && after[..|before|] == before
  }

  // Invariants.

  ghost predicate UniqueIds(s: Store) {
    && (forall i, j :: 0 <= i < j < |s.users| ==> s.users[i].id != s.users[j].id)
    && (forall i, j :: 0 <= i < j < |s.cars| ==> s.cars[i].id != s.cars[j].id)
    && (forall i, j :: 0 <= i < j < |s.bookings| ==> s.bookings[i].id != s.bookings[j].id)
    && (forall i, j :: 0 <= i < j < |s.payments| ==> s.payments[i].id != s.payments[j].id)
    && (forall i, j :: 0 <= i < j < |s.feedback| ==> s.feedback[i].id != s.feedback[j].id)
  }

  ghost predicate EmailsUnique(users: seq<User>) {
    forall i, j :: 0 <= i < j < |users| ==> users[i].email != users[j].email
  }

  ghost predicate RegistrationsUnique(cars: seq<Car>) {
    forall i, j :: 0 <= i < j < |cars| ==> cars[i].registration != cars[j].registration
  }

  ghost function UserIds(s: Store): set<Id> {
    set u | u in s.users :: u.id
  }

  ghost function CarIds(s: Store): set<Id> {
    set c | c in s.cars :: c.id
  }

  ghost function BookingIds(s: Store): set<Id> {
    set b | b in s.bookings :: b.id
  }

  /** Every reference a handler stores points at a document that existed
      when it was stored. */
  ghost predicate ReferencesResolve(s: Store) {
    && (forall i :: 0 <= i < |s.bookings| ==> s.bookings[i].userId in UserIds(s))
    && (forall i :: 0 <= i < |s.bookings| ==> s.bookings[i].carId in CarIds(s))
    && (forall i :: 0 <= i < |s.payments| ==> s.payments[i].bookingId in BookingIds(s))
    && (forall i :: 0 <= i < |s.feedback| ==> s.feedback[i].userId in UserIds(s))
  }

  /** The boolean availability policy: a car with a booking that has not
      been returned is flagged unavailable. */
  ghost predicate FlagsConsistent(s: Store) {
    forall i, j ::
      (0 <= i < |s.bookings| && 0 <= j < |s.cars| &&
       s.bookings[i].status != Returned && s.cars[j].id == s.bookings[i].carId)
      ==> !s.cars[j].available
  }

  /** Everything but the flag policy: unique ids, emails and registration
      numbers, and resolved references. */
  ghost predicate WellFormed(s: Store) {
    && UniqueIds(s)
    && EmailsUnique(s.users)
    && RegistrationsUnique(s.cars)
    && ReferencesResolve(s)
  }

  ghost predicate Consistent(s: Store) {
    WellFormed(s) && FlagsConsistent(s)
  }

  // Appending one document keeps the store consistent when its id is fresh
  // and its references resolve.

  lemma AppendPaymentPreserves(s: Store, p: Payment)
    requires Consistent(s)
    requires forall j :: 0 <= j < |s.payments| ==> s.payments[j].id != p.id
    requires p.bookingId in BookingIds(s)
    ensures Consistent(s.(payments := s.payments + [p]))
  {
    var s' := s.(payments := s.payments + [p]);
    forall i | 0 <= i < |s'.payments|
      ensures s'.payments[i].bookingId in BookingIds(s')
    {
      if i < |s.payments| {
        assert s'.payments[i] == s.payments[i];
      }
    }
  }

  lemma AppendUserPreserves(s: Store, u: User)
    requires Consistent(s)
    requires forall j :: 0 <= j < |s.users| ==> s.users[j].id != u.id
    requires EmailsUnique(s.users + [u])
    ensures Consistent(s.(users := s.users + [u]))
  {
    var s' := s.(users := s.users + [u]);
    assert UserIds(s') == UserIds(s) + {u.id};
  }

  lemma AppendFeedbackPreserves(s: Store, f: Feedback)
    requires Consistent(s)
    requires forall j :: 0 <= j < |s.feedback| ==> s.feedback[j].id != f.id
    requires f.userId in UserIds(s)
    ensures Consistent(s.(feedback := s.feedback + [f]))
  {
    var s' := s.(feedback := s.feedback + [f]);
    forall i | 0 <= i < |s'.feedback|
      ensures s'.feedback[i].userId in UserIds(s')
    {
      if i < |s.feedback| {
        assert s'.feedback[i] == s.feedback[i];
      }
    }
  }

  lemma AppendCarPreserves(s: Store, c: Car)
    requires Consistent(s)
    requires forall j :: 0 <= j < |s.cars| ==> s.cars[j].id != c.id
    requires RegistrationsUnique(s.cars + [c])
    ensures Consistent(s.(cars := s.cars + [c]))
  {
    var s' := s.(cars := s.cars + [c]);
    assert CarIds(s') == CarIds(s) + {c.id};
    assert c.id !in CarIds(s);
    forall i, j | 0 <= i < |s'.bookings| && 0 <= j < |s'.cars| &&
                  s'.bookings[i].status != Returned && s'.cars[j].id == s'.bookings[i].carId
      ensures !s'.cars[j].available
    {
      if j == |s.cars| {
        assert false;
      } else {
        assert s'.cars[j] == s.cars[j];
      }
    }
  }
}

=== FILE: ordering.dfy ===
/** The `sort({field: -1})` and `limit(k)` cursor stages: a stable insertion
    sort on an integer key, newest (largest) first, and the first `k` of the
    sorted result. The store leaves the order of equal keys unspecified;
    the model fixes one admissible order (insertion order among ties). */
module Ordering {

  ghost predicate SortedDesc<T>(xs: seq<T>, key: T -> int) {
    forall i, j :: 0 <= i < j < |xs| ==> key(xs[i]) >= key(xs[j])
  }

  /** Places `x` after every element whose key is at least its own. */
  function Insert<T>(x: T, xs: seq<T>, key: T -> int): (r: seq<T>)
    requires SortedDesc(xs, key)
    ensures SortedDesc(r, key)
    ensures multiset(r) == multiset(xs) + multiset{x}
    ensures |r| == |xs| + 1
  {
    if |xs| == 0 then [x]
    else if key(xs[0]) >= key(x) then
      var rest := Insert(x, xs[1..], key);
      HeadDominates(xs, x, rest, key);
      assert xs == [xs[0]] + xs[1..];
      [xs[0]] + rest
    else
      [x] + xs
  }

  /** The head of a sorted sequence is at least every element of a
      rearrangement of its tail plus a smaller element. */
  lemma HeadDominates<T>(xs: seq<T>, x: T, rest: seq<T>, key: T -> int)
    requires |xs| > 0 && SortedDesc(xs, key) && key(xs[0]) >= key(x)
    requires multiset(rest) == multiset(xs[1..]) + multiset{x}
    requires SortedDesc(rest, key)
    ensures SortedDesc([xs[0]] + rest, key)
  {
    forall i | 0 <= i < |rest|
      ensures key(xs[0]) >= key(rest[i])
    {
      assert rest[i] in multiset(rest);
      if rest[i] != x {
        assert rest[i] in xs[1..];
      }
    }
  }

  function SortDesc<T>(xs: seq<T>, key: T -> int): (r: seq<T>)
    ensures SortedDesc(r, key)
    ensures multiset(r) == multiset(xs)
    ensures |r| == |xs|
  {
    if |xs| == 0 then []
    else
      assert xs == xs[..|xs| - 1] + [xs[|xs| - 1]];
      Insert(xs[|xs| - 1], SortDesc(xs[..|xs| - 1], key), key)
  }

  /** `r` is a valid answer to `sort({key: -1}).limit(k)` over `xs`: the
      min(k, |xs|) elements with the largest keys, largest first. */
  ghost predicate IsTopK<T>(r: seq<T>, xs: seq<T>, key: T -> int, k: nat) {
    && |r| == (if |xs| < k then |xs| else k)
    && SortedDesc(r, key)
    && multiset(r) <= multiset(xs)
    && forall y, i :: y in multiset(xs) - multiset(r) && 0 <= i < |r| ==> key(y) <= key(r[i])
  }

  /** The first `k` elements of the sorted collection: sorted, drawn from
      `xs`, and no element left out has a larger key than one kept. */
  function TopK<T>(xs: seq<T>, key: T -> int, k: nat): (r: seq<T>)
    ensures IsTopK(r, xs, key, k)
  {
    var sorted := SortDesc(xs, key);
    var n := if |xs| < k then |xs| else k;
    PrefixDominates(sorted, key, n);
    var r := sorted[..n];
    r
  }

  /** In a sorted sequence, what the first `n` elements leave behind is no
      larger than any of them. */
  lemma PrefixDominates<T>(sorted: seq<T>, key: T -> int, n: nat)
    requires SortedDesc(sorted, key)
    requires n <= |sorted|
    ensures SortedDesc(sorted[..n], key)
    ensures multiset(sorted[..n]) <= multiset(sorted)
    ensures forall y, i :: y in multiset(sorted) - multiset(sorted[..n]) && 0 <= i < n ==> key(y) <= key(sorted[i])
  {
    var r := sorted[..n];
    assert sorted == r + sorted[n..];
    assert multiset(sorted) == multiset(r) + multiset(sorted[n..]);
    assert multiset(sorted) - multiset(r) == multiset(sorted[n..]);
    forall y, i | y in multiset(sorted) - multiset(r) && 0 <= i < n
      ensures key(y) <= key(sorted[i])
    {
      assert y in sorted[n..];
      var j :| 0 <= j < |sorted[n..]| && sorted[n..][j] == y;
      assert sorted[n + j] == y;
    }
  }

  /** Every element of a sub-multiset of `xs` occurs in `xs`. */
  lemma DrawnFrom<T>(r: seq<T>, xs: seq<T>)
    requires multiset(r) <= multiset(xs)
    ensures forall i :: 0 <= i < |r| ==> r[i] in xs
  {
    forall i | 0 <= i < |r| ensures r[i] in xs {
      assert r[i] in multiset(r);
    }
  }

  /** An element whose key beats every other one comes first once sorted. */
  lemma LargestFirst<T>(xs: seq<T>, x: T, key: T -> int)
    requires forall j :: 0 <= j < |xs| ==> key(xs[j]) < key(x)
    ensures |SortDesc(xs + [x], key)| == |xs| + 1
    ensures SortDesc(xs + [x], key)[0] == x
  {
    var r := SortDesc(xs + [x], key);
    assert x in multiset(r);
    assert x in r;
    assert key(r[0]) >= key(x);
    assert r[0] in multiset(xs + [x]);
    assert r[0] in xs + [x];
    if r[0] != x {
      assert false;
    }
  }
}

=== FILE: payment.dfy ===
/** `POST /api/payment` (pages/api/payment.js): record a card payment for a
    booking. The amount charged is the booking's stored price, whatever the
    request says, and only the last four characters of the card number are
    kept. The booking itself is left as it was. */
module CardPayment {
  import opened Common
  import opened Model
  import opened Http

  datatype CardPaymentRequest = CardPaymentRequest(
    bookingId: Option<Id>,
    paymentMethod: Option<string>,
    cardNumber: Option<string>,
    expiryDate: Option<string>,
    cvv: Option<string>)

  /** `cardNumber.slice(-4)`: the last four characters, or the whole string
      when it is shorter. */
  function LastFour(card: string): (r: string)
    ensures |r| == if |card| < 4 then |card| else 4
    ensures card == card[..|card| - |r|] + r
  {
    if |card| < 4 then card else card[|card| - 4..]
  }

  predicate HasRequiredFields(req: CardPaymentRequest) {
    && req.bookingId.Some?
    && Truthy(req.paymentMethod)
    && Truthy(req.cardNumber)
    && Truthy(req.expiryDate)
    && Truthy(req.cvv)
  }

  predicate BookingKnown(req: CardPaymentRequest, s: Store) {
    HasRequiredFields(req) && BookingAt(s, req.bookingId.value).Some?
  }

  function Pay(m: Method, req: CardPaymentRequest, now: int, s: Store): (r: Outcome)
    ensures m != Post ==> r == Outcome(MethodNotAllowed, s)
    ensures m == Post && !HasRequiredFields(req) ==>
              r == Reply(400, "Missing required payment details", s)
    ensures m == Post && HasRequiredFields(req) && !BookingKnown(req, s) ==>
              r == Reply(404, "Booking not found", s)
    ensures r.response.status == 201 <==> m == Post && BookingKnown(req, s)
    ensures r.response.status != 201 ==> r.store == s
    ensures r.response.status == 201 ==>
              && AppendsOne(s.payments, r.store.payments)
              && var p := r.store.payments[|s.payments|];
              && (forall j :: 0 <= j < |s.payments| ==> s.payments[j].id != p.id)
              && r.response.body == Created("Payment processed successfully", p.id)
              && p.bookingId == req.bookingId.value
              && p.amount == s.bookings[BookingAt(s, req.bookingId.value).value].price
              && p.paymentMethod == req.paymentMethod.value
              && p.lastFour == Some(LastFour(req.cardNumber.value))
              && p.date == now
              && p.transaction == Transaction("simulated_transaction_", now)
    ensures r.store.users == s.users && r.store.cars == s.cars &&
            r.store.bookings == s.bookings && r.store.feedback == s.feedback
  {
    if m != Post then Outcome(MethodNotAllowed, s)
    else if !HasRequiredFields(req) then Reply(400, "Missing required payment details", s)
    else
      match BookingAt(s, req.bookingId.value)
      case None => Reply(404, "Booking not found", s)
      case Some(k) =>
        var payment := Payment(
          FreshId(s.payments, (p: Payment) => p.id), req.bookingId.value, req.paymentMethod.value,
          Some(LastFour(req.cardNumber.value)), s.bookings[k].price, now,
          Transaction("simulated_transaction_", now));
        var s' := s.(payments := s.payments + [payment]);
        assert s'.payments[..|s.payments|] == s.payments;
        Outcome(Response(201, Created("Payment processed successfully", payment.id)), s')
  }

  /** The amount charged does not depend on the request beyond the booking
      it names: two card payments for the same booking charge the same. */
  lemma AmountIndependentOfRequest(req1: CardPaymentRequest, req2: CardPaymentRequest, t1: int, t2: int, s: Store)
    requires BookingKnown(req1, s) && BookingKnown(req2, s)
    requires req1.bookingId == req2.bookingId
    ensures Pay(Post, req1, t1, s).store.payments[|s.payments|].amount ==
            Pay(Post, req2, t2, s).store.payments[|s.payments|].amount
  {
  }

  lemma PayPreservesConsistent(m: Method, req: CardPaymentRequest, now: int, s: Store)
    requires Consistent(s)
    ensures Consistent(Pay(m, req, now, s).store)
  {
    var r := Pay(m, req, now, s);
    if r.response.status == 201 {
      var p := r.store.payments[|s.payments|];
      assert r.store == s.(payments := s.payments + [p]);
      assert s.bookings[BookingAt(s, req.bookingId.value).value] in s.bookings;
      AppendPaymentPreserves(s, p);
    }
  }
}

=== FILE: register.dfy ===
/** `POST /api/auth/register` (pages/api/auth/register.js): refuse an email
    that is already taken, otherwise store a new non-admin user whose
    password is kept only as a bcrypt digest. The handler validates nothing
    else: absent fields are stored as absent. */
module Register {
  import opened Common
  import opened Model
  import opened Http

  datatype RegisterRequest = RegisterRequest(
    email: Option<string>,
    password: Option<string>,
    name: Option<string>,
    phone: Option<string>,
    address: Option<string>)

  /** `findOne({email})`: an absent email matches a user stored without one. */
  predicate EmailTaken(req: RegisterRequest, s: Store) {
    UserWithEmail(s, req.email).Some?
  }

  function Register(m: Method, req: RegisterRequest, s: Store): (r: Outcome)
    ensures m != Post ==> r == Outcome(MethodNotAllowed, s)
    ensures m == Post && EmailTaken(req, s) ==> r == Reply(400, "User with this email already exists", s)
    ensures m == Post && !EmailTaken(req, s) && req.password.None? ==> r == Outcome(ServerError, s)
    ensures r.response.status == 201 <==> m == Post && !EmailTaken(req, s) && req.password.Some?
    ensures r.response.status != 201 ==> r.store == s
    ensures r.response.status == 201 ==>
              && AppendsOne(s.users, r.store.users)
              && var u := r.store.users[|s.users|];
              && (forall j :: 0 <= j < |s.users| ==> s.users[j].id != u.id)
              && r.response.body == Created("User registered successfully", u.id)
              && u.email == req.email
              && Matches(req.password.value, u.password)
              && u.password.rounds == SaltRounds
              && u.name == req.name && u.phone == req.phone && u.address == req.address
              && !u.isAdmin
    ensures r.store.cars == s.cars && r.store.bookings == s.bookings &&
            r.store.payments == s.payments && r.store.feedback == s.feedback
  {
    if m != Post then Outcome(MethodNotAllowed, s)
    else if EmailTaken(req, s) then Reply(400, "User with this email already exists", s)
    // Hashing an undefined password throws inside the handler's try block.
    else if req.password.None? then Outcome(ServerError, s)
    else
      var user := User(
        FreshId(s.users, (u: User) => u.id), req.email, Hash(req.password.value),
        req.name, req.phone, req.address, false);
      var s' := s.(users := s.users + [user]);
      assert s'.users[..|s.users|] == s.users;
      Outcome(Response(201, Created("User registered successfully", user.id)), s')
  }

  /** If no two users share an email before a call, none do after it. */
  lemma {:induction false} RegisterPreservesEmailsUnique(m: Method, req: RegisterRequest, s: Store)
    requires EmailsUnique(s.users)
    ensures EmailsUnique(Register(m, req, s).store.users)
  {
    var r := Register(m, req, s);
    if r.response.status == 201 {
      var u := r.store.users[|s.users|];
      assert r.store.users == s.users + [u];
      forall j | 0 <= j < |s.users| ensures s.users[j].email != u.email {
        assert UserWithEmail(s, req.email).None?;
      }
    }
  }

  lemma RegisterPreservesConsistent(m: Method, req: RegisterRequest, s: Store)
    requires Consistent(s)
    ensures Consistent(Register(m, req, s).store)
  {
    RegisterPreservesEmailsUnique(m, req, s);
    var r := Register(m, req, s);
    if r.response.status == 201 {
      var u := r.store.users[|s.users|];
      assert r.store == s.(users := s.users + [u]);
      AppendUserPreserves(s, u);
    }
  }
}

=== FILE: simulate_payment.dfy ===
/** `POST /api/simulate-payment` (pages/api/simulate-payment.js): a payment
    that always succeeds. It forces the booking to `approved`, whatever its
    status, and appends a payment of the submitted amount. */
module SimulatedPayment {
  import opened Common
  import opened Model
  import opened Http

  /** `amount` is `None` only when it is left undefined; zero is a value. */
  datatype SimulatedPaymentRequest = SimulatedPaymentRequest(bookingId: Option<Id>, amount: Option<int>)

  const JustApproved := "Simulated payment successful and booking approved"
  const AlreadyApproved := "Simulated payment processed, booking was already approved"

  predicate HasRequiredFields(req: SimulatedPaymentRequest) {
    req.bookingId.Some? && req.amount.Some?
  }

  predicate BookingKnown(req: SimulatedPaymentRequest, s: Store) {
    HasRequiredFields(req) && BookingAt(s, req.bookingId.value).Some?
  }

  function Pay(m: Method, req: SimulatedPaymentRequest, now: int, s: Store): (r: Outcome)
    ensures m != Post ==> r == Outcome(MethodNotAllowed, s)
    ensures m == Post && !HasRequiredFields(req) ==> r == Reply(400, "Missing booking ID or amount", s)
    ensures m == Post && HasRequiredFields(req) && !BookingKnown(req, s) ==>
              r == Reply(404, "Booking not found", s)
    ensures r.response.status == 200 <==> m == Post && BookingKnown(req, s)
    ensures r.response.status != 200 ==> r.store == s
    ensures r.response.status == 200 ==>
              var k := BookingAt(s, req.bookingId.value).value;
              && |r.store.bookings| == |s.bookings|
              && r.store.bookings[k] == s.bookings[k].(status := Approved)
              && (forall i :: 0 <= i < |s.bookings| && i != k ==> r.store.bookings[i] == s.bookings[i])
              && r.response.body == Message(if s.bookings[k].status == Approved then AlreadyApproved else JustApproved)
    ensures r.response.status == 200 ==>
              && AppendsOne(s.payments, r.store.payments)
              && var p := r.store.payments[|s.payments|];
              && (forall j :: 0 <= j < |s.payments| ==> s.payments[j].id != p.id)
              && p.bookingId == req.bookingId.value
              && p.amount == req.amount.value
              && p.paymentMethod == "Simulated"
              && p.lastFour == None
              && p.date == now
              && p.transaction == Transaction("sim_", now)
    ensures r.store.users == s.users && r.store.cars == s.cars && r.store.feedback == s.feedback
  {
    if m != Post then Outcome(MethodNotAllowed, s)
    else if !HasRequiredFields(req) then Reply(400, "Missing booking ID or amount", s)
    else
      match BookingAt(s, req.bookingId.value)
      case None => Reply(404, "Booking not found", s)
      case Some(k) =>
        var booking := s.bookings[k];
        // `updateOne` reports a modification only when the status changes.
        var modified := booking.status != Approved;
        var payment := Payment(
          FreshId(s.payments, (p: Payment) => p.id), req.bookingId.value, "Simulated", None,
          req.amount.value, now, Transaction("sim_", now));
        var s' := s.(bookings := s.bookings[k := booking.(status := Approved)],
                     payments := s.payments + [payment]);
        assert s'.payments[..|s.payments|] == s.payments;
        Outcome(Response(200, Message(if modified then JustApproved else AlreadyApproved)), s')
  }

  /** Paying twice for the same booking succeeds both times: the second call
      reports the booking as already approved and still records a payment. */
  lemma RepeatedPaymentRecordsTwice(req1: SimulatedPaymentRequest, req2: SimulatedPaymentRequest, t1: int, t2: int, s: Store)
    requires BookingKnown(req1, s)
    requires HasRequiredFields(req2) && req2.bookingId == req1.bookingId
    ensures var s1 := Pay(Post, req1, t1, s).store;
            var r2 := Pay(Post, req2, t2, s1);
            && r2.response == Response(200, Message(AlreadyApproved))
            && |r2.store.payments| == |s.payments| + 2
            && r2.store.bookings == s1.bookings
  {
    var s1 := Pay(Post, req1, t1, s).store;
    var k := BookingAt(s, req1.bookingId.value).value;
    assert s1.bookings == s.bookings[k := s.bookings[k].(status := Approved)];
    FindFirstAfterUpdate(s.bookings, (b: Booking) => b.id == req1.bookingId.value, k, s.bookings[k].(status := Approved));
    var r2 := Pay(Post, req2, t2, s1);
    assert r2.store.bookings == s1.bookings[k := s1.bookings[k].(status := Approved)];
  }

  /** The simulated payment touches only the booking it names and the
      payments, so it keeps ids unique and references resolved; the flag
      policy survives as long as the booking it approves is not a returned
      one (which would become active again on a car that may be free). */
  lemma PayPreservesConsistent(m: Method, req: SimulatedPaymentRequest, now: int, s: Store)
    requires Consistent(s)
    requires BookingKnown(req, s) ==> s.bookings[BookingAt(s, req.bookingId.value).value].status != Returned
    ensures Consistent(Pay(m, req, now, s).store)
  {
    var r := Pay(m, req, now, s);
    if r.response.status == 200 {
      var k := BookingAt(s, req.bookingId.value).value;
      var p := r.store.payments[|s.payments|];
      assert r.store.payments == s.payments + [p];
      var s1 := s.(bookings := s.bookings[k := s.bookings[k].(status := Approved)]);
      assert r.store == s1.(payments := s1.payments + [p]);
      ApprovePreserves(s, k);
      assert s1.bookings[k] in s1.bookings;
      AppendPaymentPreserves(s1, p);
    }
  }

  /** Whatever the status of the booking it approves, the simulated payment
      keeps ids unique, emails and registration numbers unique, and every
      reference resolved: only the flag policy depends on the status. */
  lemma PayPreservesWellFormed(m: Method, req: SimulatedPaymentRequest, now: int, s: Store)
    requires WellFormed(s)
    ensures WellFormed(Pay(m, req, now, s).store)
  {
    var r := Pay(m, req, now, s);
    if r.response.status == 200 {
      var k := BookingAt(s, req.bookingId.value).value;
      var p := r.store.payments[|s.payments|];
      assert r.store.payments == s.payments + [p];
      var s1 := s.(bookings := s.bookings[k := s.bookings[k].(status := Approved)]);
      assert r.store == s1.(payments := s1.payments + [p]);
      ApproveKeepsBookingIds(s, k);
      assert s.bookings[k] in s.bookings;
      forall i | 0 <= i < |r.store.payments|
        ensures r.store.payments[i].bookingId in BookingIds(r.store)
      {
        if i < |s.payments| {
          assert r.store.payments[i] == s.payments[i];
        }
      }
    }
  }

  lemma ApproveKeepsBookingIds(s: Store, k: nat)
    requires k < |s.bookings|
    ensures BookingIds(s.(bookings := s.bookings[k := s.bookings[k].(status := Approved)])) == BookingIds(s)
  {
    var s' := s.(bookings := s.bookings[k := s.bookings[k].(status := Approved)]);
    forall x | x in s'.bookings ensures x.id in BookingIds(s) {
      var i :| 0 <= i < |s'.bookings| && s'.bookings[i] == x;
      assert s.bookings[i] in s.bookings;
    }
    forall x | x in s.bookings ensures x.id in BookingIds(s') {
      var i :| 0 <= i < |s.bookings| && s.bookings[i] == x;
      assert s'.bookings[i] in s'.bookings;
    }
  }

  /** Setting a live booking to approved keeps the store consistent. */
  lemma ApprovePreserves(s: Store, k: nat)
    requires Consistent(s)
    requires k < |s.bookings| && s.bookings[k].status != Returned
    ensures Consistent(s.(bookings := s.bookings[k := s.bookings[k].(status := Approved)]))
  {
    ApproveKeepsBookingIds(s, k);
  }

  /** Re-approving a returned booking whose car is free again leaves an
      approved booking on a car flagged available: the flag policy breaks. */
  lemma ReapprovingReturnedBookingBreaksFlags(s: Store, k: nat, j: nat, amount: int, now: int)
    requires k < |s.bookings| && j < |s.cars|
    requires s.bookings[k].status == Returned
    requires s.cars[j].id == s.bookings[k].carId && s.cars[j].available
    requires BookingAt(s, s.bookings[k].id) == Some(k)
    ensures !FlagsConsistent(Pay(Post, SimulatedPaymentRequest(Some(s.bookings[k].id), Some(amount)), now, s).store)
  {
    var s' := Pay(Post, SimulatedPaymentRequest(Some(s.bookings[k].id), Some(amount)), now, s).store;
    assert s'.bookings[k].status == Approved && s'.cars[j].available;
  }

  /** A consistent store holding one returned booking whose car has been
      made available again. */
  function ReturnedScenario(): Store {
    Store([User(1, None, Hash("pw"), None, None, None, false)],
          [Car(2, "Make", "Model", 2020, "red", "R-1", 5000, None, true)],
          [Booking(3, 1, 2, "City", 0, 1, "Town", 0, 5000, Returned)],
          [], [])
  }

  /** Consistent stores meeting the premises of
      `ReapprovingReturnedBookingBreaksFlags` exist, so the simulated
      payment can take a consistent store to an inconsistent one. */
  lemma ReturnedScenarioConsistent()
    ensures var s := ReturnedScenario();
            && Consistent(s)
            && s.bookings[0].status == Returned
            && s.cars[0].id == s.bookings[0].carId && s.cars[0].available
            && BookingAt(s, s.bookings[0].id) == Some(0)
            && !FlagsConsistent(Pay(Post, SimulatedPaymentRequest(Some(3), Some(5000)), 0, s).store)
  {
    var s := ReturnedScenario();
    assert s.users[0] in s.users;
    assert s.cars[0] in s.cars;
    ReapprovingReturnedBookingBreaksFlags(s, 0, 0, 5000, 0);
  }
}
